=== FILE: README.md ===
# CS7000-P bootloader core in Dafny

A model of the core of the CS7000-P DFU bootloader firmware (STM32H7, C).

- **Flash engine** (`Flash`, `FlashRuns`). The non-blocking program/erase engine of flash bank 2 has five states: IDLE, ERASE_PENDING, ERASE_BUSY, WRITE_PENDING and WRITE_BUSY.
  - Erase and write requests are accepted only while the engine is idle.
  - `Process` models `flash_process` as a pure step. It takes the context and a snapshot of the flash peripheral: the SR2 flags QW, WBNE and EOP, the CR2 fields PSIZE, SNB, SER, START, PG and FW, and the bytes of memory.
  - `FlashRuns` folds `Process` over any sequence of flag snapshots chosen by the hardware. It proves that a finished write leaves the staged image in memory, that it took exactly ceil(length/32) stores, and that quiet hardware lets a write finish.
- **GPIO** (`Gpio`, `ShiftReg`, `GpioDispatch`). This part covers:
  - the per-pin bit fields of a native port's MODER, OTYPER, PUPDR, AFR and OSPEEDR registers;
  - the BSRR set and clear words and the IDR read;
  - the 24-output shift-register extender's shadow bytes;
  - the `gpioDev_*` / `gpioPin_*` forwarding through a device's operation table.
- **USB strings** (`Hex`, `UsbStrings`). These model the hex serial number built from the 96-bit unique ID, and the string descriptor callback. The callback covers index dispatch, 32-unit truncation and the header word of section 9.6.7 of the USB 2.0 specification.
- **DFU callbacks** (`DfuCallbacks`). These cover the poll-timeout, upload, download and manifest policies of the stub DFU class callbacks. The state codes follow section 6.1.2 of the USB DFU 1.1 specification.
- **Boot logic** (`Boot`). This covers the main-entry decision driven by the backup-register magic word and the ALARM key, `printUnsignedInt`, the wrap-safe LED blink task, and the key edge detector of `cdc_task`.

Design choices:
- Machine integers are `int` subset types defined once in `CInts` (`u8`, `u16`, `u32`), and 32-bit wrap-around is `CInts.Wrap`. `Boot.Elapsed` and `Boot.Advance` compute the same wrap by cases, and `Boot.Modulo32` proves them equal to it. Register words are bit-vectors.
- CR2's bit positions live in the device header `stm32h7xx.h`, which is not part of this model. CR2 is therefore a record of named fields, and SNB holds only a sector number 0..7, so the other SNB bits are clear by construction.
- The flags are sampled once per step. A second `flash_op_complete` in the same call sees the same snapshot, with EOP already acknowledged.
- The hardware's inputs are parameters: the flag snapshots, the unique ID bytes, the backup-register word, the IDR of port E and the tick counter.
- The dispatch layer forwards to the operations as written: `GpioDispatch.NativeMode` calls `Gpio.SetMode`, and the extender table calls `ShiftReg.Modify` / `ShiftReg.Read`. So OPEN_DRAIN_PU gets no pull-up and extender pin 24 is pin 16 (see Findings). The same dispatch over the two corrections is `GpioDispatch.CorrectedNativeMode`, `CorrectedApiWrite` and `CorrectedApiRead`.

Observation: `button_read` is true when the key line reads 1. `main` treats that same level as "key not held" and reboots into the application. So `cdc_task` prints the tick when the key line goes high, which is the key's release. `Boot.ButtonTask` models this as written.

## Model

| member | source | states |
|---|---|---|
| Flash.Code | include/dfu_flash.h:8-14 | Each state has a code below 5, and only IDLE has code 0. |
| Flash.StateOfCode | include/dfu_flash.h:8-14 | Every code 0..4 names a state that maps back to it. So the five states are exactly the five codes. |
| Flash.ZeroContext | src/dfu_flash.c:16-22 | The all-zero static context is a valid context and is already IDLE before `flash_init` runs. |
| Flash.Init | src/dfu_flash.c:24-32 | After init the engine is not busy. The address, buffer, length and offset fields are kept. |
| Flash.IsBusy | src/dfu_flash.c:194-196 | The engine is busy exactly when its state's code is not 0, the value of FLASH_OP_IDLE. |
| Flash.GetState | src/dfu_flash.c:198-200 | The reported state is IDLE exactly when the engine is not busy. |
| Flash.WrapOf | src/dfu_flash.c:34-37 | The 32-bit wrap of a value known to lie in the k-th window of 2^32 is that value minus k·2^32. |
| Flash.WrapAdd | src/dfu_flash.c:143-153 | Wrapping after each addition equals wrapping once at the end, as for `addr + offset` in 32-bit arithmetic. |
| Flash.WrapSub | src/dfu_flash.c:34-37 | Wrapping both operands of a subtraction does not change the 32-bit result. |
| Flash.DistanceOfOffsets | src/dfu_flash.c:143-153 | The wrapped distance from `addr+i` to `addr+j` is `j-i` modulo 2^32. |
| Flash.SectorIsAddressBits | src/dfu_flash.c:34-37 | `((addr - 0x08100000) mod 2^32) >> 17` and `addr >> 17` agree modulo 8, for every 32-bit address. |
| Flash.AddrToSector | src/dfu_flash.c:34-37 | The sector number computed from the wrapped offset from the bank base is bits 19:17 of the address itself. |
| Flash.DivShift | src/dfu_flash.c:34-37 | Adding m whole sectors to an offset adds m to its sector quotient. |
| Flash.ModShift | src/dfu_flash.c:34-37 | Adding a multiple of 8 does not change a value modulo 8. |
| Flash.SectorInWindow | src/dfu_flash.c:34-37 | Any address at sector index k of an 8-sector aligned window maps to sector k. |
| Flash.SectorOfBankAddress | src/dfu_flash.c:34-37 | `0x08100000 + k·128K + r` maps to sector k. An address 8 sectors below the bank wraps and is masked to the same k. |
| Flash.EraseSectorAsync | src/dfu_flash.c:39-47 | Accepted if and only if idle. A refused call leaves the context unchanged. An accepted one records the address, enters ERASE_PENDING and keeps the write fields. |
| Flash.WriteAsync | src/dfu_flash.c:60-76 | Accepted if and only if idle, and a refusal changes nothing. An accepted call does all of: stages `data[0..length)` in the buffer, keeps the rest of the buffer, sets the address and length, resets the offset to 0, and enters WRITE_PENDING. |
| Flash.OpComplete | src/dfu_flash.c:49-58 | The result is false exactly while QW is set, and then nothing changes. Otherwise EOP is cleared. CR2, memory, QW and WBNE are never touched. |
| Flash.Store | src/dfu_flash.c:143-165 | Byte i of the data lands at `base+i` (wrapping). Every address at least the data's length past the base keeps its content. No other address appears. |
| Flash.DistanceOfStored | src/dfu_flash.c:143-165 | The i-th stored byte lies at distance i from the base. |
| Flash.ChunkLen | src/dfu_flash.c:143-153 | A store writes at most 32 bytes and never past the length. It writes a full 32 unless it reaches the length exactly, and it writes at least one byte while bytes remain. |
| Flash.StoreStep | src/dfu_flash.c:140-169 | Only the offset changes, advancing by the chunk length. Memory receives `buffer[offset..offset')` at `addr+offset`. |
| Flash.EraseStep | src/dfu_flash.c:84-115 | While QW is set nothing changes, and memory and the request fields are never touched. With QW clear, EOP is acknowledged. ERASE_PENDING then sets PSIZE, SNB = sector of addr, SER and START, and moves to ERASE_BUSY. ERASE_BUSY moves to IDLE, and clears SER, exactly when QW is clear; that completion changes no other CR2 field. The erase path never changes PG or FW, nor QW or WBNE. |
| Flash.WritePendingStep | src/dfu_flash.c:117-132 | While QW is set nothing changes. Otherwise PSIZE and PG are set, and the first WRITE_BUSY step runs in the same call: the first chunk is stored or, for a fully staged request, FW is set or the write finishes. SNB, SER and START are never changed. CR2 differs from before only by PSIZE and PG when the first chunk is stored, by PSIZE, PG and FW when the partial buffer is flushed, and only by PSIZE and PG, with PG left clear, when a fully staged request finishes in the same call. |
| Flash.WriteBusyStep | src/dfu_flash.c:134-190 | While QW is set nothing changes. Otherwise EOP is cleared, and a remaining chunk is stored with the offset advanced, staying WRITE_BUSY. Once fully stored: FW is set if WBNE is set, else the state becomes IDLE with PG cleared. IDLE needs offset = length with QW and WBNE clear. CR2: only PG and FW are ever written; a store leaves CR2 as it was, the flush changes only FW and completion changes only PG. QW and WBNE are never changed. |
| Flash.Process | src/dfu_flash.c:78-192 | Every step keeps 0 ≤ offset ≤ length, never issues a command while QW is set, and only follows the state machine's edges. Erase path: ERASE_PENDING sets PSIZE, SNB = sector of addr, SER and START, then moves to ERASE_BUSY; that completes to IDLE with SER cleared. Write path: WRITE_PENDING sets PSIZE and PG and falls through into the first store. Memory changes only by the store of the next chunk. |
| Flash.ProcessFramesControl | src/dfu_flash.c:78-192 | Per call to `flash_process`: the erase path never changes PG or FW, and the write path never changes SNB, SER or START. A store in WRITE_BUSY leaves CR2 as it was, its flush changes only FW, its completion only PG, and an erase completion only SER. From WRITE_PENDING, a first store changes only PSIZE and PG, a flush only PSIZE, PG and FW, and finishing in the same call only PSIZE and PG (left clear). QW and WBNE are never changed. |
| FlashRuns.Run | src/dfu_flash.c:78-192 | Any number of engine steps keeps the context valid and the address, buffer and length fixed, and never moves the offset backwards. |
| FlashRuns.IdleRunIsInert | src/dfu_flash.c:78-82 | An idle engine never changes its context, CR2 or memory, and stores nothing. |
| FlashRuns.StepCommits | src/dfu_flash.c:140-169 | A step keeps "memory below the offset equals the buffer" true. It changes nothing outside `[addr, addr+length)`. |
| FlashRuns.StoreCommits | src/dfu_flash.c:140-169 | Storing the chunk `[off, off')` extends the committed prefix from off to off'. |
| FlashRuns.StoreSparesBelow | src/dfu_flash.c:140-169 | The store at `addr+off` cannot reach bytes already written below off. |
| FlashRuns.StoreHitsAbove | src/dfu_flash.c:140-169 | `(addr+off)+(j-off)` is `addr+j` in 32-bit arithmetic. |
| FlashRuns.StoreUntouched | src/dfu_flash.c:140-169 | A store of part of the staged range changes no address outside `[addr, addr+length)`. |
| FlashRuns.ShiftedDistance | src/dfu_flash.c:143-153 | This relates distances measured from `addr` and from `addr+off` under 32-bit wrap-around. |
| FlashRuns.UntouchedTrans | src/dfu_flash.c:134-190 | "Unchanged outside the staged range" composes across steps. |
| FlashRuns.WriteRunCommits | src/dfu_flash.c:117-190 | A write that reaches IDLE leaves `mem[addr+j] == buffer[j]` for every j < length. Nothing outside the staged range changes. |
| FlashRuns.WriteRunStoreCount | src/dfu_flash.c:140-169 | A write that reaches IDLE performed exactly ceil((length-offset)/32) stores. |
| FlashRuns.FreshWriteCommits | src/dfu_flash.c:60-192 | An accepted `flash_write_async` followed by steps to IDLE leaves `data[0..length)` at `addr..addr+length-1`. |
| FlashRuns.Quiet | src/dfu_flash.c:78-192 | The quiet hardware trace has the requested length, and QW and WBNE are clear in every snapshot. |
| FlashRuns.QuietWriteFinishes | src/dfu_flash.c:117-190 | With QW and WBNE clear, any write reaches IDLE within ceil((length-offset)/32)+1 steps. |
| FlashRuns.EraseRunSelectsSector | src/dfu_flash.c:84-115 | An erase that reaches IDLE has SNB = `addr_to_sector(addr)` with SER cleared. |
| Gpio.ModeCode | include/gpio.h:31-43 | Every Mode value fits in bits 7:0. |
| Gpio.SpeedCode | include/gpio.h:228-234 | Every Speed value fits in a 2-bit field. |
| Gpio.AlternateFunc | include/gpio.h:48 | `ALTERNATE_FUNC(af)` has a zero low byte and af in its high byte. |
| Gpio.ModeByte | src/gpio.c:31 | The mode byte is at most 0xFF, is the word itself when the word fits in a byte, and is what remains after removing bits 15:8. |
| Gpio.AfOf | src/gpio.c:25 | The alternate function read from a mode word is at most 15 and is exactly bits 11:8 of the word. |
| Gpio.ModeWordRoundTrip | include/gpio.h:48 | For af < 16 and any byte m, `ALTERNATE_FUNC(af) \| m` decodes in `gpio_setMode` to mode byte m and alternate function af. |
| Gpio.Replace2 | src/gpio.c:27-29 | Clearing and setting a pin's 2-bit field yields the new value there and every other pin's field unchanged. |
| Gpio.Replace2Other | src/gpio.c:27-29 | Another pin's 2-bit field is unchanged by the replacement. |
| Gpio.Replace1 | src/gpio.c:28 | The 1-bit OTYPER replacement yields the new bit there and keeps every other pin's bit. |
| Gpio.Replace1High | src/gpio.c:28 | The 1-bit OTYPER replacement at a pin 0..15 keeps the register's reserved bits 31:16. |
| Gpio.Replace1Other | src/gpio.c:28 | Another pin's OTYPER bit is unchanged by the replacement. |
| Gpio.Replace4 | src/gpio.c:7-20 | The 4-bit AFR nibble replacement yields the new value there and keeps the other seven nibbles. |
| Gpio.Replace4Other | src/gpio.c:7-20 | Another nibble is unchanged by the replacement. |
| Gpio.SetGpioAf | src/gpio.c:7-20 | The pin's AFR nibble becomes af. Every other pin's nibble and every other register is unchanged. |
| Gpio.CaseTable | src/gpio.c:31-112 | The switch of `gpio_setMode` yields a well-formed configuration for every mode byte. |
| Gpio.Intended | include/gpio.h:31-43 | Each Mode's documented configuration is well-formed. |
| Gpio.ModeOf | include/gpio.h:31-43 | Every byte 0..9 is the code of a Mode. |
| Gpio.CaseTableMatchesModes | src/gpio.c:31-112 | The switch gives each mode its documented (MODER, OTYPER, PUPDR) triple, except OPEN_DRAIN_PU. That mode gets OPEN_DRAIN's triple (01, 1, 00) and not the pull-up. Any byte above 9 falls to the `default:` case and is configured as INPUT. |
| Gpio.CorrectedTable | src/gpio.c:31-112 | The corrected switch yields a well-formed configuration for every mode byte. |
| Gpio.CorrectedTableMatchesModes | src/gpio.c:31-112 | The corrected switch gives every mode its documented triple, including OPEN_DRAIN_PU's pull-up. An unknown byte behaves like INPUT. |
| Gpio.Configure | src/gpio.c:27-112 | The pin's MODER, OTYPER and PUPDR fields take the configuration's values. For alternate modes its AFR nibble takes af. Every other pin, OTYPER's reserved bits 31:16 and OSPEEDR/IDR/BSRR are unchanged. |
| Gpio.SetModeFields | src/gpio.c:27-29 | The pin's three mode fields take the given values. All other pins, OTYPER's reserved bits 31:16 and all other registers keep their contents. |
| Gpio.SetMode | src/gpio.c:22-113 | As written: the pin gets the case table's triple for the mode byte, and AFR only in alternate modes. Every other pin keeps its configuration, and OTYPER's bits 31:16 are kept. |
| Gpio.SetModeCorrected | src/gpio.c:22-113 | As SetMode, with OPEN_DRAIN_PU selecting the pull-up. |
| Gpio.SetModeCorrectedConfigures | src/gpio.c:22-113 | `setMode(ALTERNATE_FUNC(af) \| m)` gives the pin exactly m's documented configuration, with af in AFR for alternate modes. |
| Gpio.SetOutputSpeed | src/gpio.c:115-119 | Only the pin's 2-bit OSPEEDR field changes, and it becomes the speed code. |
| Gpio.SetPinWord | include/gpio.h:271-274 | The set word has exactly one bit set: bit pin, in the low half. |
| Gpio.ClearPinWord | include/gpio.h:283-286 | The clear word has exactly one bit set: bit pin+16, in the high half. |
| Gpio.SetClearWordsDisjoint | include/gpio.h:271-286 | A set word and a clear word never share a bit. The clear word is the set word shifted up by 16. |
| Gpio.ReadPin | include/gpio.h:295-299 | The result is 0 or 1, and it is 1 exactly when IDR bit pin is set. |
| ShiftReg.MaskTable | src/gpio.c:223-227 | `1 << bit` is the power of two for each of the eight bits. |
| ShiftReg.MasksDisjoint | src/gpio.c:223-227 | The masks of two different bits share no bit. |
| ShiftReg.SetBitSame | src/gpio.c:223-224 | OR-ing in the mask sets the bit. |
| ShiftReg.ClearBitSame | src/gpio.c:225-227 | AND-ing with the inverted mask clears the bit. |
| ShiftReg.SetBitOther | src/gpio.c:223-224 | OR-ing in one bit's mask keeps every other bit. |
| ShiftReg.ClearBitOther | src/gpio.c:225-227 | Clearing one bit keeps every other bit. |
| ShiftReg.SetClearSame | src/gpio.c:223-227 | With a non-zero mask, OR leaves the masked bits non-zero and AND-NOT zeroes them. |
| ShiftReg.SetClearOther | src/gpio.c:223-227 | OR and AND-NOT with one mask leave the bits of a disjoint mask unchanged. |
| ShiftReg.Modify | src/gpio.c:213-234 | As written: a pin above 24 changes nothing. For a pin up to 24, the byte and bit indices are in range and reading the pin back gives the written state. |
| ShiftReg.Set | src/gpio.c:236-238 | A set pin within the guard reads back true. |
| ShiftReg.Clear | src/gpio.c:240-242 | A cleared pin reads back false. |
| ShiftReg.Read | src/gpio.c:244-252 | A pin above 24 reads false. |
| ShiftReg.Init | src/gpio.c:202-211 | After init every pin reads false. |
| ShiftReg.PinLayout | src/gpio.c:215-216 | Pins 0–7 live in byte 2, 8–15 in byte 1 and 16–23 in byte 0, at bit pin%8. No two of the 24 pins share a bit. |
| ShiftReg.ModifyIsLocal | src/gpio.c:213-234 | Changing one of pins 0..23 leaves every other pin's reading unchanged. |
| ShiftReg.OtherByte | src/gpio.c:213-234 | A write to a pin leaves the shadow bytes of the other bytes' pins unchanged. |
| ShiftReg.Pin24AliasesPin16 | src/gpio.c:215-219 | As written, pin 24 passes the guard. `(23-24)/8` truncates to 0, so writing or reading pin 24 is writing or reading pin 16. |
| ShiftReg.CorrectedIsExact | src/gpio.c:213-252 | With the guard at 24, a write to pin p < 24 reads back and changes no other pin. Every pin ≥ 24 is a no-op that reads false. |
| ShiftReg.ModifyCorrected | src/gpio.c:213-234 | With the guard at 24, a pin from 24 up changes nothing, and any pin below 24 reads back the written state. |
| ShiftReg.ReadCorrected | src/gpio.c:244-252 | With the guard at 24, only pins below 24 can read true, and for them the reading is the shadow bit. |
| GpioDispatch.NativeMode | src/gpio.c:121-129 | Returns -1 and touches nothing when pin > 15. Otherwise returns 0 and applies `gpio_setMode` as written to that port only. |
| GpioDispatch.ExtMode | src/gpio.c:163-169 | The extender's mode operation always returns -1 and touches nothing. |
| GpioDispatch.ApiMode | src/gpio.c:121-169 | The `mode` entry of both tables: 0 exactly for a native device and a pin ≤ 15; any other call returns -1 and changes nothing. |
| GpioDispatch.ApiWrite | src/gpio.c:131-242 | The `set` / `clear` entries of both tables. A native write touches only its own port's BSRR and not the extender. An extender write changes no port but E. For a pin up to 24 it ends with the strobe GPIOE,8 raised, so port E's BSRR holds that pin's set word and nothing else of port E changes; the pin then reads back the written level. A pin above 24 changes nothing. |
| GpioDispatch.ApiRead | src/gpio.c:141-252 | The `read` entry of both tables. A native pin reads its IDR bit. An extender pin above 24 reads false, and pin 24 reads pin 16's bit. |
| GpioDispatch.Strobed | src/gpio.c:229-231 | The extender update ends with `gpio_setPin(GPIOEXT_STR)`, GPIOEXT_STR being pin 8 of port E (include/pinmap.h:26). Port E's BSRR then holds that pin's set word; every other port and every other register of port E is unchanged. |
| GpioDispatch.DevSetMode | include/gpio.h:132-136 | Forwards to the device's own mode operation. It returns 0 exactly for a native device and pin ≤ 15, and then changes no other port and not the extender. |
| GpioDispatch.DevSet | include/gpio.h:145-148 | Forwards to the device's own set operation. On a native port this writes exactly the pin's BSRR set word to that port. On the extender, a pin up to 24 then reads high, and the only port change is port E's BSRR holding the strobe's set word. A pin above 24 changes nothing. |
| GpioDispatch.DevClear | include/gpio.h:157-160 | Forwards to the device's own clear operation. On a native port this writes exactly the pin's BSRR clear word to that port. On the extender the pin then reads low. For a pin up to 24 the only port change is port E's BSRR holding the strobe's set word; a pin above 24 changes nothing. |
| GpioDispatch.DevRead | include/gpio.h:169-172 | Forwards to the device's own read operation. A native pin reads its IDR bit. An extender pin reads its shadow bit, and only pins up to 24 can read high. |
| GpioDispatch.PinSetMode | include/gpio.h:182-185 | `gpioPin_setMode` is `gpioDev_setMode` on the descriptor's device and pin. |
| GpioDispatch.PinSet | include/gpio.h:193-196 | `gpioPin_set` is `gpioDev_set` on the descriptor's device and pin. |
| GpioDispatch.PinClear | include/gpio.h:204-207 | `gpioPin_clear` is `gpioDev_clear` on the descriptor's device and pin. |
| GpioDispatch.PinRead | include/gpio.h:215-218 | `gpioPin_read` is `gpioDev_read` on the descriptor's device and pin. |
| GpioDispatch.ExtWriteThenRead | src/gpio.c:213-252 | Through the interface, an extender pin up to 24 reads back what was written, a pin above 24 is ignored, and a write to one of pins 0..23 changes no other of them. |
| GpioDispatch.ExtPin24IsPin16 | src/gpio.c:213-252 | Through the interface, setting, clearing and reading extender pin 24 set, clear and read pin 16. |
| GpioDispatch.NativeWriteIsLocal | src/gpio.c:131-139 | Setting or clearing a native pin writes exactly that pin's BSRR word to its own port and nothing else. |
| GpioDispatch.CorrectedNativeMode | src/gpio.c:121-129 | As NativeMode, applying the corrected `gpio_setMode`. |
| GpioDispatch.CorrectedApiWrite | src/gpio.c:213-242 | With the guard at 24: a native write is unchanged; an extender pin below 24 reads back the written level, with port E's BSRR left holding the strobe's set word as the only port change. A pin from 24 up changes nothing. |
| GpioDispatch.CorrectedApiRead | src/gpio.c:244-252 | With the guard at 24: native reads are unchanged, an extender pin from 24 up reads false, and one below 24 reads as before. |
| GpioDispatch.CorrectedExtWriteThenRead | src/gpio.c:213-252 | With the guard at 24, through the interface every extender pin below 24 reads back what was written, a write changes no other pin, and pins from 24 up are neither written nor read. |
| Hex.Digit | src/usb_descriptors.c:115-124 | A nibble's digit is one of '0'..'9', 'A'..'F'. |
| Hex.DigitIsTableEntry | src/usb_descriptors.c:115-124 | The digit of n is entry n of "0123456789ABCDEF". |
| Hex.Value | src/main.c:93-101 | A hex digit's value is below 16. |
| Hex.DigitValue | src/main.c:93-101 | Digit and Value are inverse on 0..15 and on the digit characters. |
| Hex.Pow16 | src/main.c:93-101 | Every power of 16 is positive. |
| Hex.Number | src/main.c:93-101 | A string of n hex digits, most significant first, denotes a number below 16^n. |
| Hex.ScaleBound | src/main.c:93-101 | A digit's weight is at most 15 times its place value. |
| UsbStrings.Widen | src/usb_descriptors.c:181-185 | Zero-extending a character to a UTF-16 unit keeps its value. |
| UsbStrings.ByteUnits | src/usb_descriptors.c:115-124 | Each byte contributes two units. |
| UsbStrings.Encode | src/usb_descriptors.c:115-124 | The encoding has two units per byte. |
| UsbStrings.EncodeAt | src/usb_descriptors.c:115-124 | Unit 2i is the hex digit of byte i's high nibble and unit 2i+1 that of its low nibble. |
| UsbStrings.Decode | src/usb_descriptors.c:115-124 | A successful decode has half as many bytes as units. |
| UsbStrings.DecodeEncode | src/usb_descriptors.c:115-124 | Decoding the hex encoding gives back the bytes. |
| UsbStrings.GetSerial | src/usb_descriptors.c:105-127 | The byte count is capped at max/2. The serial has exactly twice the bytes used, never more than max units and never more than 24. It decodes to the UID's leading bytes. |
| UsbStrings.SerialIsWholeUid | src/usb_descriptors.c:164-166 | With the 32-unit limit the serial has 24 characters and decodes to all 12 UID bytes. |
| UsbStrings.LittleEndian | src/usb_descriptors.c:160 | The unit copied from two bytes has the first as its low byte and the second as its high byte. |
| UsbStrings.LangIdIsEnglish | src/usb_descriptors.c:140-161 | The language table {0x09, 0x04} copies to the unit 0x0409. |
| UsbStrings.Header | src/usb_descriptors.c:190 | The header's low byte is bLength = 2·count+2 and its high byte is the STRING descriptor type 3 (section 9.6.7 of USB 2.0). |
| UsbStrings.AsciiUnits | src/usb_descriptors.c:174-186 | A table string is truncated to 32 units, one zero-extended unit per character. |
| UsbStrings.TableIsAscii | src/usb_descriptors.c:137-146 | Every string in the table is ASCII. |
| UsbStrings.StringDescriptor | src/usb_descriptors.c:153-192 | Results: NULL exactly for an index beyond the 6-entry table. The header's low byte is the byte length of the whole descriptor and its high byte is 3. Index 0 gives the single unit 0x0409. Index 3 gives 24 units decoding to the whole UID. Other indices give their string zero-extended. |
| DfuCallbacks.StateCode | src/dfu_tinyusb.c:13-21 | The eleven DFU state codes lie in 0..10. |
| DfuCallbacks.StateCodesDistinct | src/dfu_tinyusb.c:13-21 | Two states share a code only if they are the same state. |
| DfuCallbacks.GetTimeout | src/dfu_tinyusb.c:13-21 | The timeout is non-zero exactly in dfuDNBUSY, where it is 1 exactly for alt 0 and 100 exactly for any other alt. Every other state, including dfuMANIFEST, gives 0. |
| DfuCallbacks.Download | src/dfu_tinyusb.c:23-28 | Every download block finishes with status OK. |
| DfuCallbacks.Manifest | src/dfu_tinyusb.c:30-33 | Manifestation always finishes with status OK. |
| DfuCallbacks.Upload | src/dfu_tinyusb.c:35-41 | The buffer is never changed. Block 0 returns the requested length. The result is non-zero exactly for block 0 with a non-zero length. |
| DfuCallbacks.UploadIsOneBlock | src/dfu_tinyusb.c:35-41 | A host reading blocks until a zero-length reply receives exactly the requested length in total. |
| Boot.ButtonRead | src/main.c:52-54 | The button reads true exactly when bit 10 of port E's IDR is set (ALARM_KEY, include/pinmap.h:15). |
| Boot.BootDecision | src/main.c:56-90 | The magic flag jumps to the application and clears the flag. Otherwise a high key line stores the magic flag and resets, and a low key line stays in the bootloader with the flag untouched. |
| Boot.TwoResets | src/main.c:47-65 | After a reboot into the application, the next boot jumps to the application whatever the key reads. After a jump, the next boot decides as from a cleared flag. |
| Boot.BootloaderNeedsKey | src/main.c:70-89 | Without the magic flag, the device stays in the bootloader exactly when the key line reads 0. |
| Boot.Regroup | src/main.c:93-101 | `y·p` splits into the contribution of y's lowest hex digit and the rest. |
| Boot.ShiftBound | src/main.c:93-101 | Dropping the lowest hex digit of an (n+1)-digit number leaves an n-digit number. |
| Boot.PrintUnsignedInt | src/main.c:93-103 | The line has exactly 12 characters: "0x", eight hex digits most significant first, then "\r\n". The eight digits denote x. |
| Boot.DigitStep | src/main.c:93-101 | Prepending the next lowest digit keeps the value invariant of the digit loop. |
| Boot.NumberCons | src/main.c:93-101 | A digit prepended to a digit string adds its value times the string's place value. |
| Boot.Elapsed | src/main.c:133-146 | `tick - start` in uint32_t: start plus the result is tick, or tick plus 2^32 when the counter wrapped. |
| Boot.Advance | src/main.c:133-146 | `start + d` in uint32_t: the result is start+d, or start+d-2^32 when that overflows. |
| Boot.Modulo32 | src/main.c:133-146 | The case-wise elapsed time and start advance equal the 32-bit wrap of `tick-start` and `start+d`. |
| Boot.ElapsedAcrossWrap | src/main.c:133-146 | After advancing start by d, even across 2^32, the elapsed time measured from the old start is d. |
| Boot.BlinkTask | src/main.c:133-146 | Nothing happens while fewer than 250 ms have elapsed. Otherwise the LED is written with the old state, the state toggles, and start advances by exactly 250, so 250 less has elapsed. |
| Boot.Repeat | src/main.c:133-146 | Repeated calls toggle at most once per call. |
| Boot.BlinkCatchesUp | src/main.c:133-146 | After n·250 ms, n calls toggle n times and consume exactly n·250 ms of the backlog. |
| Boot.ButtonEdge | src/main.c:116-122 | The stored reading always becomes the current one. A print happens exactly on a false→true transition. |
| Boot.Prints | src/main.c:116-122 | The poll loop decides one print per reading. |
| Boot.PrintsAtRisingEdges | src/main.c:116-122 | Over a run of readings, reading i prints exactly when it is true and the previous reading was false. |
| Boot.PrintsNeedLowReading | src/main.c:116-122 | Between two prints the line must have read false (key held) at least once; a line kept high prints once. |
| Boot.ButtonTask | src/main.c:105-123 | Returns the current reading as the new previous one. The printed line is non-empty exactly on a rising edge, and then it is the 12-character hex line of the tick. |

## Left out

- DfuSe session handling (set-address, erase and get-commands, block-to-address mapping): the firmware's DFU callbacks are stubs and contain none of it.
- `flash_erase_sector_blocking` / `flash_write_blocking` (src/dfu_flash.c:202-214): they terminate only if the hardware eventually clears QW. `FlashRuns.QuietWriteFinishes` states the write case over an explicit quiet trace instead.
- The KEYR2 unlock sequence of `flash_init`: it is register magic into foreign hardware. `Flash.Init` models only the state reset.
- `__ISB`/`__DSB` barriers and the DEBUG_MEASURE pin toggles: they have no effect on the modelled state.
- Flash.Store: the 256-bit write buffer and its commit, when full or on FW (src/dfu_flash.c:143-176), are not modelled. Stores go straight to memory, so the forced flush appears only as the requirement that WBNE be clear before the write reaches IDLE.
- The effect of a sector erase on memory contents: the engine only issues the command. `Flash.Process` leaves memory unchanged on the erase path.
- The flag registers' other bits and CR2's exact bit positions: `stm32h7xx.h` is not part of this model.
- `Flash.WriteAsync`: the staging-buffer capacity CFG_TUD_DFU_XFER_BUFSIZE comes from a USB stack configuration that is not part of this model. It is fixed at 2048 here; the proofs need only that it is below 2^16.
- `spiSr_send` (bit-banged shifting) and `__disable_irq`/`__enable_irq` around the extender update are not modelled beyond their end state.
- GpioDispatch.ApiWrite: as do `DevSet`, `DevClear`, `CorrectedApiWrite`, `PinSet` and `PinClear`, it keeps only the last of the extender update's writes to port E's BSRR, the strobe's set word (`1 << 8`). The 48 clock and data words that `spiSr_send` writes before it, and the strobe's clear word, are not modelled, because a port's `bsrr` holds only the last word written.
- ShiftReg.Init: only the shadow reset is modelled. The `gpio_setMode` calls that make the strobe, clock and data pins outputs, and the strobe pulse around the first shift, are not.
- `GpioDispatch.DevSet`: requires pin ≤ 15 for a native port, as do `DevClear`, `DevRead`, `PinSet`, `PinClear`, `PinRead`, `ApiWrite`, `ApiRead`, `CorrectedApiWrite` and `CorrectedApiRead`. The C code does not check. `1 << pin` for larger pins addresses BSRR's reset half, or is undefined behaviour from pin 32 on.
- `UsbStrings.Header`: requires a count of at most 32, which every caller guarantees.
- `UsbStrings.StringDescriptor`: ignores the language id argument, as the C code does. The static descriptor buffer is returned as a value.
- The 96-bit unique ID read (`get_unique_id`): a foreign hardware read, taken as a 12-byte parameter.
- The DFU mount, unmount, abort and detach callbacks: they are empty.
- `DfuCallbacks.HostUpload`: the host's read loop is bounded by a fuel count and by the 16-bit block number. `DfuCallbacks.UploadIsOneBlock` holds for every fuel value.
- The backup-domain power and register access in main's flag helpers: the flag word is a parameter and the new word a result.
- The RED_LED write: RED_LED is not defined in include/pinmap.h or in any other header this model draws on (main.c also includes boot_jump.h, clock.h, init.h and tusb.h, which are not part of this model), so `Boot.BlinkTask` returns an abstract LED write.
- `g_tickCount` and the SysTick handler: the tick is a parameter.
- Clock tree, peripheral bring-up, calibrated delays, the application jump, the CDC printf layer, syscalls, the CDC echo loop, the TinyUSB transport and its interrupt handler: all are hardware bring-up or foreign code.
- The USB device and configuration descriptor tables: they are built by TinyUSB macros that are not part of this model.

## Findings

| source | as written | input that shows it | evidently intended | confidence | as-written member | corrected member |
|---|---|---|---|---|---|---|
| src/gpio.c:75-80 | OPEN_DRAIN_PU sets MODER 01 and OTYPER 1 but leaves PUPDR at 00, the same as OPEN_DRAIN | mode byte 6 (OPEN_DRAIN_PU) on any pin | PUPDR 01 (pull-up), as the enum's comment and the case's own comment `PUP=01` say and as ALTERNATE_OD_PU does | high, not executed | Gpio.CaseTableMatchesModes | Gpio.SetModeCorrectedConfigures |
| src/gpio.c:215-219 | the guard `pin > 24` lets pin 24 through, and `(24-1-24)/8` truncates to byte 0, so pin 24 aliases pin 16 | pin 24 on the extender | reject pins from 24 up, since the chain has outputs 0..23 | high, not executed | ShiftReg.Pin24AliasesPin16 | ShiftReg.CorrectedIsExact |

=== FILE: boot.dfy ===
/** The bootloader's own logic in src/main.c: the boot-flag decision taken
    at reset, the hexadecimal tick printer, the LED blink timer and the
    button edge detector of the main loop.  The backup register, the tick
    counter and the key's input register are parameters; the jump, the reset
    and the USB transport are not modelled. */
module Boot {
  import Gpio
  import Hex
  import opened CInts

  /** BOOT_MAGIC_GO_APP, the value left in backup register BKP0R. */
  const BootMagic: u32 := 0xDEAD_B007

  /** ALARM_KEY is pin 10 of GPIOE. */
  const AlarmKeyPin: Gpio.Pin := 10

  /** button_read: the key's input line reads 1.  main treats that level
      as the key being released. */
  function ButtonRead(idrE: bv32): (b: bool)
    ensures b <==> Gpio.Bit(idrE, AlarmKeyPin) == 1
  {
    Gpio.ReadPin(idrE, AlarmKeyPin) == 1
  }

  /** Where a reset leads. */
  datatype Outcome =
    | JumpToApplication       // the flag was set: clear it and start the application
    | RebootIntoApplication   // key released: set the flag and reset
    | StayInBootloader        // key held: bring up USB and serve

  /** main up to the main loop: the outcome and the backup flag it leaves.
      A set flag is consumed by the jump; with the key released the flag is
      set for the next reset; with the key held the flag is left alone. */
  function BootDecision(flag: u32, idrE: bv32): (r: (Outcome, u32))
    ensures r.0 == JumpToApplication <==> flag == BootMagic
    ensures r.0 == StayInBootloader <==> flag != BootMagic && !ButtonRead(idrE)
    ensures r.0 == JumpToApplication ==> r.1 == 0
    ensures r.0 == RebootIntoApplication ==> r.1 == BootMagic
    ensures r.0 == StayInBootloader ==> r.1 == flag
  {
    if flag == BootMagic then (JumpToApplication, 0)
    else if ButtonRead(idrE) then (RebootIntoApplication, BootMagic)
    else (StayInBootloader, flag)
  }

  /** Over two resets: a reboot into the application is followed by the
      jump whatever the key does, and after the jump the flag is spent, so
      the following reset jumps again only through another reboot. */
  lemma TwoResets(flag: u32, idr1: bv32, idr2: bv32)
    ensures var (o1, f1) := BootDecision(flag, idr1);
      && (o1 == RebootIntoApplication ==> BootDecision(f1, idr2).0 == JumpToApplication)
      && (o1 == JumpToApplication ==> BootDecision(f1, idr2) == BootDecision(0, idr2))
      && (o1 == JumpToApplication ==> BootDecision(f1, idr2).0 != JumpToApplication)
  {
  }

  /** The bootloader is reached from a clear flag only with the key held,
      and then the main loop runs forever: it never leaves that state on
      its own. */
  lemma BootloaderNeedsKey(flag: u32, idrE: bv32)
    requires flag != BootMagic
    ensures BootDecision(flag, idrE).0 == StayInBootloader <==> Gpio.Bit(idrE, AlarmKeyPin) == 0
  {
    var b := Gpio.Bit(idrE, AlarmKeyPin);
    assert b == 0 || b == 1;
  }

  /** x * p split at the lowest hex digit of x. */
  lemma Regroup(y: nat, p: nat)
    ensures y * p == (y / 16) * (16 * p) + (y % 16) * p
  {
    calc {
      y * p;
      (16 * (y / 16) + y % 16) * p;
      (y / 16) * (16 * p) + (y % 16) * p;
    }
  }

  lemma ShiftBound(y: nat, n: nat)
    requires y < Hex.Pow16(n + 1)
    ensures y / 16 < Hex.Pow16(n)
  {
  }

  /** printUnsignedInt: the 12 characters handed to the CDC port, "0x",
      eight upper-case hex digits that spell x most significant first, and
      CR LF. */
  method PrintUnsignedInt(x: u32) returns (line: string)
    ensures |line| == 12
    ensures line[..2] == "0x" && line[10..] == "\r\n"
    ensures Hex.AllDigits(line[2..10]) && Hex.Number(line[2..10]) == x
  {
    // The digits written so far, in result[i + 1..10].
    var digits: string := [];
    var y: nat := x;
    var i := 9;
    assert Hex.Pow16(8) == Two32;
    while i >= 2
      invariant 1 <= i <= 9 && |digits| == 9 - i
      invariant Hex.AllDigits(digits)
      invariant x == y * Hex.Pow16(|digits|) + Hex.Number(digits)
      invariant y < Hex.Pow16(i - 1)
    {
      DigitStep(x, y, digits);
      ShiftBound(y, i - 2);
      digits := [Hex.Digit(y % 16)] + digits;
      y := y / 16;
      i := i - 1;
    }
    line := "0x" + digits + "\r\n";
    assert line[2..10] == digits;
  }

  /** One turn of the printer's loop: the lowest digit of y moves from y
      into the digits written. */
  lemma DigitStep(x: nat, y: nat, digits: string)
    requires Hex.AllDigits(digits)
    requires x == y * Hex.Pow16(|digits|) + Hex.Number(digits)
    ensures Hex.AllDigits([Hex.Digit(y % 16)] + digits)
    ensures x == (y / 16) * Hex.Pow16(|digits| + 1) + Hex.Number([Hex.Digit(y % 16)] + digits)
  {
    var d := y % 16;
    Hex.DigitValue(d, '0');
    Regroup(y, Hex.Pow16(|digits|));
    NumberCons(Hex.Digit(d), digits);
  }

  /** Prefixing a digit adds its weight at the new leading place. */
  lemma NumberCons(c: char, t: string)
    requires Hex.IsDigit(c) && Hex.AllDigits(t)
    ensures Hex.AllDigits([c] + t)
    ensures Hex.Number([c] + t) == Hex.Value(c) * Hex.Pow16(|t|) + Hex.Number(t)
  {
    assert ([c] + t)[1..] == t;
  }

  /** The blink task's static state: when the current interval started and
      the level to write next. */
  datatype Blinker = Blinker(start: u32, led: bool)

  const BlinkInterval: u32 := 250

  /** `g_tickCount - start_ms` in uint32_t arithmetic: the difference,
      plus 2^32 when it would be negative. */
  function Elapsed(tick: u32, start: u32): (e: u32)
    ensures start + e == tick || start + e == tick + Two32
  {
    if tick >= start then tick - start else tick - start + Two32
  }

  /** `start_ms += interval` in uint32_t arithmetic. */
  function Advance(start: u32, d: u32): (s: u32)
    ensures s == start + d || s + Two32 == start + d
  {
    if start + d < Two32 then start + d else start + d - Two32
  }

  /** Both are the arithmetic modulo 2^32 of the source. */
  lemma Modulo32(tick: u32, start: u32, d: u32)
    ensures Elapsed(tick, start) == Wrap(tick - start)
    ensures Advance(start, d) == Wrap(start + d)
  {
  }

  /** The counter may wrap between the start of an interval and now: the
      difference is still the number of ticks in between. */
  lemma ElapsedAcrossWrap(start: u32, d: u32)
    ensures Elapsed(Advance(start, d), start) == d
  {
  }

  /** What the blink task asks of the LED. */
  datatype LedWrite = NoWrite | Write(on: bool)

  /** led_blinking_task: until 250 ticks have passed, nothing; then the
      interval start moves on by exactly 250 ticks (not to the current
      tick, so no time is lost), the LED is driven with the stored level and
      the level flips. */
  function BlinkTask(b: Blinker, tick: u32): (r: (Blinker, LedWrite))
    ensures r.1.NoWrite? <==> Elapsed(tick, b.start) < BlinkInterval
    ensures r.1.NoWrite? ==> r.0 == b
    ensures r.1.Write? ==>
      && r.1.on == b.led
      && r.0.led == !b.led
      && Elapsed(tick, r.0.start) == Elapsed(tick, b.start) - BlinkInterval
  {
    if Elapsed(tick, b.start) < BlinkInterval then (b, NoWrite)
    else (Blinker(Advance(b.start, BlinkInterval), !b.led), Write(b.led))
  }

  /** n calls of led_blinking_task at one tick value: the final state and the number
      of LED writes. */
  function Repeat(b: Blinker, tick: u32, n: nat): (r: (Blinker, nat))
    ensures r.1 <= n
    decreases n
  {
    if n == 0 then (b, 0)
    else
      var step := BlinkTask(b, tick);
      var rest := Repeat(step.0, tick, n - 1);
      (rest.0, rest.1 + if step.1.Write? then 1 else 0)
  }

  /** A main loop that fell behind catches up one interval per call: while
      whole intervals are outstanding every call writes the LED, the
      outstanding time shrinks by 250 ticks per call and the level
      alternates. */
  lemma {:induction false} BlinkCatchesUp(b: Blinker, tick: u32, n: nat)
    requires 250 * n <= Elapsed(tick, b.start)
    ensures Repeat(b, tick, n).1 == n
    ensures Elapsed(tick, Repeat(b, tick, n).0.start) == Elapsed(tick, b.start) - 250 * n
    ensures Repeat(b, tick, n).0.led == (if n % 2 == 0 then b.led else !b.led)
    decreases n
  {
    if n > 0 {
      var step := BlinkTask(b, tick);
      var e, e' := Elapsed(tick, b.start), Elapsed(tick, step.0.start);
      assert step.1.Write? && step.0.led == !b.led && e' == e - 250;
      BlinkCatchesUp(step.0, tick, n - 1);
      var rest := Repeat(step.0, tick, n - 1);
      assert Repeat(b, tick, n) == (rest.0, rest.1 + 1);
      assert Elapsed(tick, rest.0.start) == e' - 250 * (n - 1) == e - 250 * n;
    }
  }

  /** The edge detector in cdc_task: print on a false-to-true change of
      button_read, and remember the reading. */
  function ButtonEdge(prev: bool, btn: bool): (r: (bool, bool))
    ensures r.0 == btn
    ensures r.1 ==> btn
    ensures r.1 <==> !prev && btn
  {
    (btn, !prev && btn)
  }

  /** The edge detector of cdc_task over a run of readings: whether each call printed. */
  function Prints(prev: bool, readings: seq<bool>): (p: seq<bool>)
    ensures |p| == |readings|
    decreases |readings|
  {
    if |readings| == 0 then []
    else
      var (prev', printed) := ButtonEdge(prev, readings[0]);
      [printed] + Prints(prev', readings[1..])
  }

  /** The reading cdc_task compares call i against. */
  function Before(prev: bool, readings: seq<bool>, i: nat): bool
    requires i < |readings|
  {
    if i == 0 then prev else readings[i - 1]
  }

  /** Call i prints exactly when reading i is true and the one before it was
      false. */
  lemma {:induction false} PrintsAtRisingEdges(prev: bool, readings: seq<bool>, i: nat)
    requires i < |readings|
    ensures Prints(prev, readings)[i] <==> readings[i] && !Before(prev, readings, i)
    decreases i
  {
    if i > 0 {
      PrintsAtRisingEdges(readings[0], readings[1..], i - 1);
    }
  }

  /** Two prints are always separated by a false reading (the key held down,
      since the line reads 1 while the key is up): keeping the line high
      prints once. */
  lemma PrintsNeedLowReading(prev: bool, readings: seq<bool>, i: nat, j: nat)
    requires i < j < |readings|
    requires Prints(prev, readings)[i] && Prints(prev, readings)[j]
    ensures exists k :: i < k < j && !readings[k]
  {
    PrintsAtRisingEdges(prev, readings, i);
    PrintsAtRisingEdges(prev, readings, j);
    assert !readings[j - 1];
  }

  /** cdc_task without the echo: the new btn_prev, and the line printed
      (empty when there is none) with the tick count. */
  method ButtonTask(prev: bool, idrE: bv32, tick: u32) returns (prev': bool, line: string)
    ensures prev' == ButtonRead(idrE)
    ensures line != [] <==> !prev && ButtonRead(idrE)
    ensures line != [] ==> |line| == 12 && Hex.AllDigits(line[2..10]) && Hex.Number(line[2..10]) == tick
  {
    var btn := ButtonRead(idrE);
    var printed;
    prev', printed := ButtonEdge(prev, btn).0, ButtonEdge(prev, btn).1;
    if printed {
      line := PrintUnsignedInt(tick);
    } else {
      line := [];
    }
  }
}

=== FILE: c_ints.dfy ===
/** The C fixed-width unsigned integer types the firmware computes with, as
    ranges of mathematical integers, and the reduction modulo 2^32 that
    uint32_t arithmetic performs. */
module CInts {

  const Two32: int := 0x1_0000_0000

  type u8 = x: int | 0 <= x < 0x100
  type u16 = x: int | 0 <= x < 0x1_0000
  type u32 = x: int | 0 <= x < 0x1_0000_0000

  /** Reduction modulo 2^32, as uint32_t arithmetic does. */
  function Wrap(x: int): u32
  {
    x % Two32
  }
}

=== FILE: dfu_callbacks.dfy ===
/** The DFU class callbacks the firmware hands to TinyUSB
    (src/dfu_tinyusb.c).  They are stubs: nothing is programmed or read back
    through them, and the flash engine is not reached from here. */
module DfuCallbacks {
  import opened CInts

  /** bState, section 6.1.2 of the USB DFU 1.1 specification. */
  datatype DfuState =
    | AppIdle | AppDetach | DfuIdle | DnloadSync | DnBusy | DnloadIdle
    | ManifestSync | Manifest | ManifestWaitReset | UploadIdle | DfuError

  /** The numeric bState values, in the order the DFU specification lists
      them: appIDLE = 0 up to dfuERROR = 10. */
  function StateCode(s: DfuState): (c: u8)
    ensures c <= 10
  {
    match s
    case AppIdle => 0
    case AppDetach => 1
    case DfuIdle => 2
    case DnloadSync => 3
    case DnBusy => 4
    case DnloadIdle => 5
    case ManifestSync => 6
    case Manifest => 7
    case ManifestWaitReset => 8
    case UploadIdle => 9
    case DfuError => 10
  }

  /** The eleven states have eleven distinct codes. */
  lemma StateCodesDistinct(s: DfuState, t: DfuState)
    ensures StateCode(s) == StateCode(t) <==> s == t
  {
  }

  /** bStatus OK: the status both finishing callbacks report. */
  const StatusOk: u8 := 0

  /** tud_dfu_get_timeout_cb: bwPollTimeout in milliseconds for the state
      the host is about to poll in: while a download block is being written
      (dfuDNBUSY) the host waits 1 ms for alternate setting 0 and 100 ms for
      any other; in every other state, dfuMANIFEST included, it does not
      wait. */
  function GetTimeout(alt: u8, state: u8): (ms: u32)
    ensures ms > 0 <==> state == StateCode(DnBusy)
    ensures ms == 1 <==> state == StateCode(DnBusy) && alt == 0
    ensures ms == 100 <==> state == StateCode(DnBusy) && alt != 0
  {
    if state == StateCode(DnBusy) then (if alt == 0 then 1 else 100)
    else if state == StateCode(DfuState.Manifest) then 0
    else 0
  }

  /** tud_dfu_download_cb: the block is dropped and the download finished
      with status OK, whatever the block number, data or length. */
  function Download(alt: u8, block: u16, data: seq<u8>, length: u16): (status: u8)
    ensures status == StatusOk
  {
    StatusOk
  }

  /** tud_dfu_manifest_cb: manifestation finishes at once with status OK. */
  function Manifest(alt: u8): (status: u8)
    ensures status == StatusOk
  {
    StatusOk
  }

  /** tud_dfu_upload_cb: the byte count to send and the buffer after the
      call.  Block 0 sends all `length` bytes of the buffer as it stands;
      every later block sends nothing, which tells the host the upload is
      over.  The buffer is never written. */
  function Upload(alt: u8, block: u16, data: seq<u8>, length: u16): (r: (u16, seq<u8>))
    ensures r.1 == data
    ensures r.0 <= length
    ensures r.0 > 0 <==> block == 0 && length > 0
    ensures block == 0 ==> r.0 == length
  {
    if block != 0 then (0, data) else (length, data)
  }

  /** A host reading an image: it asks for blocks 0, 1, 2, ... of `length`
      bytes each and stops after the first short reply (section 6.2 of the
      DFU specification), or when `fuel` further requests are spent.  The
      result is the number of bytes received. */
  function HostUpload(alt: u8, data: seq<u8>, length: u16, block: u16, fuel: nat): (total: nat)
    decreases fuel
  {
    var sent := Upload(alt, block, data, length).0;
    if sent < length || fuel == 0 || block == 0xFFFF then sent
    else sent + HostUpload(alt, data, length, block + 1, fuel - 1)
  }

  /** Read back through this firmware, every image is exactly one transfer
      long: the host receives `length` bytes from block 0 and an empty block
      1, however many requests it is prepared to make. */
  lemma UploadIsOneBlock(alt: u8, data: seq<u8>, length: u16, fuel: nat)
    requires length > 0
    ensures HostUpload(alt, data, length, 0, fuel) == length
  {
    if fuel > 0 {
      assert HostUpload(alt, data, length, 1, fuel - 1) == 0;
    }
  }
}

=== FILE: flash.dfy ===
/** The non-blocking flash program/erase engine of bank 2 (src/dfu_flash.c,
    include/dfu_flash.h).

    The engine's static context becomes an immutable `FlashCtx`, and the flash
    peripheral becomes a `FlashHw` record: the status flags of SR2 that the
    engine reads (QW, WBNE, EOP), the fields of CR2 it writes (PSIZE, SNB,
    SER, START, PG, FW) and the bytes of memory it stores to.  `Process` is the
    pure counterpart of `flash_process`: it maps a context and a snapshot of
    the hardware to the next context and hardware, doing one bounded unit of
    work and never waiting. */
module Flash {
  import opened CInts

  type byte = bv8

  /** FLASH_WRITE_SIZE: the flash write parallelism, one 256-bit write buffer.
      The engine writes full chunks of exactly this width. */
  const FlashWriteSize: nat := 32

  /** Bank 2 starts at 0x08100000 and is made of eight 128 KiB sectors. */
  const BankBase: u32 := 0x0810_0000
  const SectorSize: nat := 128 * 1024

  /** Capacity of the staging buffer (CFG_TUD_DFU_XFER_BUFSIZE, set by the
      USB stack configuration).  Only its being below 2^16 matters here. */
  const BufSize: nat := 2048

  type Sector = s: int | 0 <= s < 8

  /** flash_op_state_t. */
  datatype OpState = Idle | ErasePending | EraseBusy | WritePending | WriteBusy

  /** The value of each enumerator: FLASH_OP_IDLE is 0, the rest follow. */
  function Code(s: OpState): (c: nat)
    ensures c < 5
    ensures c == 0 <==> s == Idle
  {
    match s
    case Idle => 0
    case ErasePending => 1
    case EraseBusy => 2
    case WritePending => 3
    case WriteBusy => 4
  }

  /** The state an enumerator value denotes; every value 0..4 names exactly
      one state, so the five states are distinct. */
  function StateOfCode(c: nat): (s: OpState)
    requires c < 5
    ensures Code(s) == c
  {
    if c == 0 then Idle
    else if c == 1 then ErasePending
    else if c == 2 then EraseBusy
    else if c == 3 then WritePending
    else WriteBusy
  }

  /** The engine's context (flash_ctx). */
  datatype FlashCtx = FlashCtx(
    state: OpState,
    addr: u32,
    buffer: seq<byte>,
    length: u16,
    offset: u16)

  /** What holds of the context at every reachable point: the buffer has its
      fixed capacity, the staged length fits in it and the write cursor never
      passes the staged length. */
  predicate Valid(c: FlashCtx)
  {
    |c.buffer| == BufSize && c.length <= BufSize && c.offset <= c.length
  }

  /** The zero-initialised static context, before flash_init runs. */
  function ZeroContext(): (c: FlashCtx)
    ensures Valid(c)
    ensures c.state == Idle
  {
    FlashCtx(StateOfCode(0), 0, seq(BufSize, _ => 0), 0, 0)
  }

  /** flash_init without the unlock sequence: only the state is reset. */
  function Init(c: FlashCtx): (r: FlashCtx)
    ensures !IsBusy(r)
    ensures r.addr == c.addr && r.buffer == c.buffer
    ensures r.length == c.length && r.offset == c.offset
  {
    c.(state := Idle)
  }

  /** flash_is_busy: the state is not FLASH_OP_IDLE, whose value is 0. */
  function IsBusy(c: FlashCtx): (b: bool)
    ensures b <==> Code(c.state) != 0
  {
    c.state != Idle
  }

  /** flash_get_state. */
  function GetState(c: FlashCtx): (s: OpState)
    ensures s == Idle <==> !IsBusy(c)
  {
    c.state
  }

  // ---------------------------------------------------------------------
  // 32-bit address arithmetic

  /** The address `i` bytes above `base`, wrapping round 2^32. */
  function At(base: u32, i: int): u32
  {
    Wrap(base + i)
  }

  /** How far `a` lies above `base`, counting round the 32-bit address space. */
  function Distance(base: u32, a: u32): u32
  {
    Wrap(a - base)
  }

  /** x reduces to x - k * 2^32 when that lies in range. */
  lemma WrapOf(x: int, k: int)
    requires 0 <= x - k * Two32 < Two32
    ensures Wrap(x) == x - k * Two32
  {
  }

  lemma WrapAdd(x: int, d: int)
    ensures Wrap(Wrap(x) + d) == Wrap(x + d)
  {
    var q := x / Two32;
    assert x == q * Two32 + Wrap(x);
    assert Wrap(x) + d == (x + d) - q * Two32;
  }

  lemma WrapSub(x: int, y: int)
    ensures Wrap(Wrap(x) - Wrap(y)) == Wrap(x - y)
  {
    var qx := x / Two32;
    var qy := y / Two32;
    assert x == qx * Two32 + Wrap(x);
    assert y == qy * Two32 + Wrap(y);
    assert Wrap(x) - Wrap(y) == (x - y) + (qy - qx) * Two32;
  }

  /** The distance between two offsets from the same address is the
      difference of the offsets, modulo 2^32. */
  lemma DistanceOfOffsets(addr: u32, i: int, j: int)
    ensures Distance(At(addr, i), At(addr, j)) == Wrap(j - i)
  {
    WrapSub(addr + j, addr + i);
  }

  // ---------------------------------------------------------------------
  // Sector mapping

  /** addr_to_sector: the offset from the bank base, in uint32_t arithmetic,
      divided by the sector size and masked to three bits. */
  function AddrToSector(addr: u32): (s: Sector)
    ensures s == (addr / SectorSize) % 8
  {
    SectorIsAddressBits(addr);
    (Wrap(addr - BankBase) / SectorSize) % 8
  }

  /** Because the bank base and 2^32 are both multiples of eight sectors,
      the wrapped subtraction never matters: the sector number is just bits
      19:17 of the address, for every 32-bit address. */
  lemma SectorIsAddressBits(addr: u32)
    ensures (Wrap(addr - BankBase) / SectorSize) % 8 == (addr / SectorSize) % 8
  {
    var d := Wrap(addr - BankBase);
    var q := (addr - BankBase) / Two32;   // 0 or -1
    assert addr - BankBase == q * Two32 + d;
    assert d == addr + (-q) * Two32 - BankBase;
    assert BankBase == 1032 * SectorSize;
    assert Two32 == 32768 * SectorSize;
    var m := -q * 32768 - 1032;
    assert d == addr + m * SectorSize;
    DivShift(addr, m);
    assert d / SectorSize == addr / SectorSize + m;
    assert m % 8 == 0 by {
      assert m == (-q * 4096 - 129) * 8;
    }
    ModShift(addr / SectorSize, m);
  }

  lemma DivShift(a: int, m: int)
    ensures (a + m * SectorSize) / SectorSize == a / SectorSize + m
  {
    var q := a / SectorSize;
    var r := a % SectorSize;
    assert a == q * SectorSize + r;
    assert a + m * SectorSize == (q + m) * SectorSize + r;
  }

  lemma ModShift(a: int, m: int)
    requires m % 8 == 0
    ensures (a + m) % 8 == a % 8
  {
    var k := m / 8;
    assert m == 8 * k;
    assert a == (a / 8) * 8 + a % 8;
    assert a + m == (a / 8 + k) * 8 + a % 8;
  }

  /** Sector k of any window of eight sectors that starts on a multiple of
      eight sectors maps to k. */
  lemma SectorInWindow(m: nat, k: nat, r: nat)
    requires m % 8 == 0 && k < 8 && r < SectorSize
    requires (m + k) * SectorSize + r < Two32
    ensures AddrToSector((m + k) * SectorSize + r) == k
  {
    DivShift(r, m + k);
    ModShift(k, m);
  }

  /** Within bank 2 (and likewise in the 1 MiB below it), the k-th 128 KiB
      sector maps to k. */
  lemma SectorOfBankAddress(k: nat, r: nat)
    requires k < 8 && r < SectorSize
    ensures AddrToSector(BankBase + k * SectorSize + r) == k
    ensures AddrToSector(BankBase - 8 * SectorSize + k * SectorSize + r) == k
  {
    assert BankBase + k * SectorSize + r == (1032 + k) * SectorSize + r;
    SectorInWindow(1032, k, r);
    assert BankBase - 8 * SectorSize + k * SectorSize + r == (1024 + k) * SectorSize + r;
    SectorInWindow(1024, k, r);
  }

  // ---------------------------------------------------------------------
  // Async requests

  /** flash_erase_sector_async: accepted only when idle. */
  function EraseSectorAsync(c: FlashCtx, addr: u32): (r: (bool, FlashCtx))
    ensures r.0 <==> !IsBusy(c)
    ensures !r.0 ==> r.1 == c
    ensures r.0 ==> r.1.state == ErasePending && r.1.addr == addr
    ensures r.0 ==> r.1.buffer == c.buffer && r.1.length == c.length && r.1.offset == c.offset
    ensures Valid(c) ==> Valid(r.1)
  {
    if c.state != Idle then (false, c)
    else (true, c.(addr := addr, state := ErasePending))
  }

  /** flash_write_async: accepted only when idle; the first `length` bytes of
      `data` are copied into the staging buffer (a length beyond the buffer
      would overflow it, so the caller must not pass one). */
  function WriteAsync(c: FlashCtx, addr: u32, data: seq<byte>, length: u16): (r: (bool, FlashCtx))
    requires Valid(c)
    requires length <= |data| && length <= BufSize
    ensures Valid(r.1)
    ensures r.0 <==> !IsBusy(c)
    ensures !r.0 ==> r.1 == c
    ensures r.0 ==> r.1.state == WritePending && r.1.addr == addr
    ensures r.0 ==> r.1.length == length && r.1.offset == 0
    ensures r.0 ==> r.1.buffer[..length] == data[..length]
    ensures r.0 ==> r.1.buffer[length..] == c.buffer[length..]
  {
    if c.state != Idle then (false, c)
    else
      var buffer := data[..length] + c.buffer[length..];
      (true, c.(buffer := buffer, addr := addr, length := length, offset := 0, state := WritePending))
  }

  // ---------------------------------------------------------------------
  // The flash peripheral

  /** The SR2 flags the engine reads: QW (a write or erase is queued or in
      progress), WBNE (the write buffer holds uncommitted bytes) and EOP. */
  datatype Status = Status(qw: bool, wbne: bool, eop: bool)

  /** The CR2 fields the engine writes. */
  datatype Control = Control(psize: bv2, snb: Sector, ser: bool, start: bool, pg: bool, fw: bool)

  type Memory = map<u32, byte>

  datatype FlashHw = FlashHw(sr: Status, cr: Control, mem: Memory)

  /** PSIZE_1 | PSIZE_0: the widest programming parallelism. */
  const PsizeFull: bv2 := 3

  /** flash_op_complete: false while QW is set; otherwise true, with EOP
      acknowledged.  Nothing else is touched. */
  function OpComplete(hw: FlashHw): (r: (bool, FlashHw))
    ensures r.0 <==> !hw.sr.qw
    ensures !r.0 ==> r.1 == hw
    ensures r.0 ==> !r.1.sr.eop
    ensures r.1.cr == hw.cr && r.1.mem == hw.mem
    ensures r.1.sr.qw == hw.sr.qw && r.1.sr.wbne == hw.sr.wbne
  {
    if hw.sr.qw then (false, hw)
    else if hw.sr.eop then (true, hw.(sr := hw.sr.(eop := false)))
    else (true, hw)
  }

  /** Byte stores of `data` at `base`, `base + 1`, ... (addresses wrap). */
  function Store(mem: Memory, base: u32, data: seq<byte>): (m: Memory)
    requires |data| <= Two32
    ensures forall i :: 0 <= i < |data| ==> At(base, i) in m && m[At(base, i)] == data[i]
    ensures forall a :: a in mem && Distance(base, a) >= |data| ==> a in m && m[a] == mem[a]
    ensures forall a :: a in m ==> a in mem || Distance(base, a) < |data|
  {
    DistanceOfStored(base, |data|);
    map a: u32 | 0 <= a < Two32 && (a in mem || Distance(base, a) < |data|)
      :: if Distance(base, a) < |data| then data[Distance(base, a)] else mem[a]
  }

  lemma DistanceOfStored(base: u32, n: nat)
    requires n <= Two32
    ensures forall i :: 0 <= i < n ==> Distance(base, At(base, i)) == i
  {
    forall i | 0 <= i < n
      ensures Distance(base, At(base, i)) == i
    {
      DistanceOfOffsets(base, 0, i);
    }
  }

  /** How many bytes the next store step writes: a full chunk when at least
      one remains, the short tail otherwise. */
  function ChunkLen(c: FlashCtx): (k: nat)
    requires c.offset <= c.length
    ensures k <= FlashWriteSize && c.offset + k <= c.length
    ensures k == FlashWriteSize || c.offset + k == c.length
    ensures c.offset < c.length ==> k > 0
  {
    if c.length - c.offset >= FlashWriteSize then FlashWriteSize else c.length - c.offset
  }

  /** The bytes the next store step writes: the staged buffer from the
      cursor on, one chunk long. */
  function Chunk(c: FlashCtx): seq<byte>
    requires Valid(c)
  {
    c.buffer[c.offset..c.offset + ChunkLen(c)]
  }

  /** One store step of WRITE_BUSY: the next chunk of the staged buffer goes
      to `addr + offset`, and the cursor advances past it. */
  function StoreStep(c: FlashCtx, hw: FlashHw): (r: (FlashCtx, FlashHw))
    requires Valid(c) && c.offset < c.length
    ensures Valid(r.0)
    ensures r.0 == c.(offset := c.offset + ChunkLen(c))
    ensures r.1 == hw.(mem := Store(hw.mem, At(c.addr, c.offset), Chunk(c)))
  {
    var remaining := c.length - c.offset;
    var dst := At(c.addr, c.offset);
    if remaining >= FlashWriteSize then
      (c.(offset := c.offset + FlashWriteSize),
       hw.(mem := Store(hw.mem, dst, c.buffer[c.offset..c.offset + FlashWriteSize])))
    else
      (c.(offset := c.length),
       hw.(mem := Store(hw.mem, dst, c.buffer[c.offset..c.length])))
  }

  /** The WRITE_BUSY case of flash_process. */
  function WriteBusyStep(c: FlashCtx, hw: FlashHw): (r: (FlashCtx, FlashHw))
    requires Valid(c) && c.state == WriteBusy
    ensures Valid(r.0)
    ensures hw.sr.qw ==> r == (c, hw)
    ensures r.0.state == WriteBusy || r.0.state == Idle
    ensures r.0.addr == c.addr && r.0.buffer == c.buffer && r.0.length == c.length
    ensures r.0.offset != c.offset ==> r.0.offset == c.offset + ChunkLen(c) && r.0.state == WriteBusy
    ensures r.0.offset == c.offset ==> r.1.mem == hw.mem
    ensures r.0.offset != c.offset ==>
      r.1.mem == Store(hw.mem, At(c.addr, c.offset), Chunk(c))
    ensures r.0.state == Idle ==> c.offset == c.length && !hw.sr.qw && !hw.sr.wbne && !r.1.cr.pg
    ensures !hw.sr.qw ==> !r.1.sr.eop
    ensures !hw.sr.qw && c.offset < c.length ==> r.0.offset == c.offset + ChunkLen(c)
    ensures !hw.sr.qw && c.offset == c.length && hw.sr.wbne ==> r.0 == c && r.1.cr.fw
    ensures !hw.sr.qw && c.offset == c.length && !hw.sr.wbne ==> r.0.state == Idle
    ensures r.0.state == WriteBusy ==> r.1.cr.pg == hw.cr.pg && r.1.cr.psize == hw.cr.psize
    // CR2: only PG and FW are ever written; a store issues no command, the
    // flush sets FW alone and completion clears PG alone.
    ensures r.1.cr.(pg := hw.cr.pg, fw := hw.cr.fw) == hw.cr
    ensures r.0.offset != c.offset ==> r.1.cr == hw.cr
    ensures !hw.sr.qw && c.offset == c.length && hw.sr.wbne ==> r.1.cr == hw.cr.(fw := true)
    ensures r.0.state == Idle ==> r.1.cr == hw.cr.(pg := false)
    ensures r.1.sr.qw == hw.sr.qw && r.1.sr.wbne == hw.sr.wbne
  {
    var (done, hw1) := OpComplete(hw);
    if !done then (c, hw)
    else if c.offset < c.length then StoreStep(c, hw1)
    else if hw1.sr.wbne then
      // Force-write the partial buffer; QW rises until it is committed.
      (c, hw1.(cr := hw1.cr.(fw := true)))
    else
      var (done2, hw2) := OpComplete(hw1);
      if done2 then (c.(state := Idle), hw2.(cr := hw2.cr.(pg := false)))
      else (c, hw2)
  }

  /** The states a step may lead to from each state. */
  predicate Successor(s: OpState, t: OpState)
  {
    match s
    case Idle => t == Idle
    case ErasePending => t == ErasePending || t == EraseBusy
    case EraseBusy => t == EraseBusy || t == Idle
    case WritePending => t == WritePending || t == WriteBusy || t == Idle
    case WriteBusy => t == WriteBusy || t == Idle
  }

  predicate Writing(s: OpState)
  {
    s == WritePending || s == WriteBusy
  }

  /** The ERASE_PENDING and ERASE_BUSY cases of flash_process. */
  function EraseStep(c: FlashCtx, hw: FlashHw): (r: (FlashCtx, FlashHw))
    requires Valid(c) && (c.state == ErasePending || c.state == EraseBusy)
    ensures hw.sr.qw ==> r == (c, hw)
    ensures r.0 == c.(state := r.0.state) && r.1.mem == hw.mem
    ensures !hw.sr.qw ==> !r.1.sr.eop
    ensures c.state == ErasePending ==> r.0.state == ErasePending || r.0.state == EraseBusy
    ensures c.state == ErasePending && !hw.sr.qw ==>
      && r.0.state == EraseBusy
      && r.1.cr.psize == PsizeFull && r.1.cr.snb == AddrToSector(c.addr)
      && r.1.cr.ser && r.1.cr.start
    ensures c.state == EraseBusy ==> r.0.state == EraseBusy || r.0.state == Idle
    ensures c.state == EraseBusy && !hw.sr.qw ==> r.0.state == Idle
    ensures c.state == EraseBusy && r.0.state == Idle ==> !hw.sr.qw && !r.1.cr.ser
    // CR2: the erase path never touches PG or FW, and completion clears SER
    // alone.
    ensures r.1.cr.pg == hw.cr.pg && r.1.cr.fw == hw.cr.fw
    ensures c.state == EraseBusy ==> r.1.cr.(ser := hw.cr.ser) == hw.cr
    ensures r.1.sr.qw == hw.sr.qw && r.1.sr.wbne == hw.sr.wbne
  {
    var (done, hw1) := OpComplete(hw);
    if !done then (c, hw)
    else if c.state == ErasePending then
      var cr := hw1.cr.(psize := PsizeFull, snb := AddrToSector(c.addr), ser := true, start := true);
      (c.(state := EraseBusy), hw1.(cr := cr))
    else
      (c.(state := Idle), hw1.(cr := hw1.cr.(ser := false)))
  }

  /** The WRITE_PENDING case of flash_process: programming is enabled and
      control falls through into the WRITE_BUSY case. */
  function WritePendingStep(c: FlashCtx, hw: FlashHw): (r: (FlashCtx, FlashHw))
    requires Valid(c) && c.state == WritePending
    ensures Valid(r.0)
    ensures hw.sr.qw ==> r == (c, hw)
    ensures r.0.state != ErasePending && r.0.state != EraseBusy
    ensures r.0.addr == c.addr && r.0.buffer == c.buffer && r.0.length == c.length
    ensures r.0.offset != c.offset ==> r.0.offset == c.offset + ChunkLen(c) && r.0.state == WriteBusy
    ensures r.0.offset == c.offset ==> r.1.mem == hw.mem
    ensures r.0.offset != c.offset ==>
      r.1.mem == Store(hw.mem, At(c.addr, c.offset), Chunk(c))
    ensures r.0.state == Idle ==> c.offset == c.length && !hw.sr.qw && !hw.sr.wbne && !r.1.cr.pg
    ensures !hw.sr.qw ==> !r.1.sr.eop
    ensures !hw.sr.qw ==> r.1.cr.psize == PsizeFull && (r.0.state == WriteBusy ==> r.1.cr.pg)
    ensures !hw.sr.qw && c.offset < c.length ==> r.0.offset == c.offset + ChunkLen(c)
    ensures !hw.sr.qw && c.offset == c.length && hw.sr.wbne ==> r.0 == c.(state := WriteBusy) && r.1.cr.fw
    ensures !hw.sr.qw && c.offset == c.length && !hw.sr.wbne ==> r.0.state == Idle
    // CR2: the write path never touches SNB, SER or START; the first store
    // follows enabling programming with no further command.
    ensures r.1.cr.snb == hw.cr.snb && r.1.cr.ser == hw.cr.ser && r.1.cr.start == hw.cr.start
    ensures r.0.offset != c.offset ==> r.1.cr == hw.cr.(psize := PsizeFull, pg := true)
    ensures r.0.state == Idle ==> r.1.cr == hw.cr.(psize := PsizeFull, pg := false)
    ensures !hw.sr.qw && c.offset == c.length && hw.sr.wbne ==>
      r.1.cr == hw.cr.(psize := PsizeFull, pg := true, fw := true)
    ensures r.1.sr.qw == hw.sr.qw && r.1.sr.wbne == hw.sr.wbne
  {
    var (done, hw1) := OpComplete(hw);
    if !done then (c, hw)
    else
      var c1 := c.(state := WriteBusy);
      assert ChunkLen(c1) == ChunkLen(c) && Chunk(c1) == Chunk(c);
      WriteBusyStep(c1, hw1.(cr := hw1.cr.(psize := PsizeFull, pg := true)))
  }

  /** flash_process: one bounded unit of work, over a snapshot of the
      hardware flags (they do not change during one call). */
  function Process(c: FlashCtx, hw: FlashHw): (r: (FlashCtx, FlashHw))
    requires Valid(c)
    ensures Valid(r.0)
    // While QW is set nothing happens at all: no state change, no cursor
    // move, no command, no store.
    ensures hw.sr.qw ==> r == (c, hw)
    ensures c.state == Idle ==> r == (c, hw)
    ensures Successor(c.state, r.0.state)
    // The request itself is never altered by the engine.
    ensures r.0.addr == c.addr && r.0.buffer == c.buffer && r.0.length == c.length
    // The cursor only moves in a write, by one chunk at a time.
    ensures r.0.offset != c.offset ==>
      Writing(c.state) && r.0.offset == c.offset + ChunkLen(c) && r.0.state == WriteBusy
    ensures !Writing(c.state) ==> r.1.mem == hw.mem
    ensures r.0.offset == c.offset ==> r.1.mem == hw.mem
    // A store writes exactly the staged bytes it moves the cursor past, at
    // the address the cursor designates.
    ensures r.0.offset != c.offset ==>
      r.1.mem == Store(hw.mem, At(c.addr, c.offset), Chunk(c))
    // Completion conditions.
    ensures c.state == EraseBusy && r.0.state == Idle ==> !hw.sr.qw && !r.1.cr.ser
    ensures Writing(c.state) && r.0.state == Idle ==>
      c.offset == c.length && !hw.sr.qw && !hw.sr.wbne && !r.1.cr.pg
    // With QW clear, a pending EOP is acknowledged ...
    ensures c.state != Idle && !hw.sr.qw ==> !r.1.sr.eop
    // ... a pending erase is issued for the sector of its address ...
    ensures c.state == ErasePending && !hw.sr.qw ==>
      && r.0.state == EraseBusy
      && r.1.cr.psize == PsizeFull && r.1.cr.snb == AddrToSector(c.addr)
      && r.1.cr.ser && r.1.cr.start
    // ... a running erase completes ...
    ensures c.state == EraseBusy && !hw.sr.qw ==> r.0.state == Idle
    // ... a pending write enables programming and falls through into the
    // first store ...
    ensures c.state == WritePending && !hw.sr.qw ==>
      r.1.cr.psize == PsizeFull && (r.0.state == WriteBusy ==> r.1.cr.pg)
    ensures Writing(c.state) && !hw.sr.qw && c.offset < c.length ==>
      r.0.offset == c.offset + ChunkLen(c) && r.0.state == WriteBusy
    // ... and a fully stored write forces out a partly filled write buffer
    // before it finishes.
    ensures Writing(c.state) && !hw.sr.qw && c.offset == c.length ==>
      if hw.sr.wbne then r.0 == c.(state := WriteBusy) && r.1.cr.fw
      else r.0.state == Idle
  {
    match c.state
    case Idle => (c, hw)
    case ErasePending => EraseStep(c, hw)
    case EraseBusy => EraseStep(c, hw)
    case WritePending => WritePendingStep(c, hw)
    case WriteBusy => WriteBusyStep(c, hw)
  }

  /** What one flash_process call does to CR2 and to the QW and WBNE flags,
      in every state. */
  lemma ProcessFramesControl(c: FlashCtx, hw: FlashHw, r: (FlashCtx, FlashHw))
    requires Valid(c) && r == Process(c, hw)
    // CR2: the erase path never touches PG or FW and the write path never
    // touches SNB, SER or START; a running write's store issues no command,
    // its flush sets FW alone and its completion clears PG alone; a pending
    // write adds PSIZE and PG to that (and finishing in the same call leaves
    // PG clear again); a running erase's completion clears SER alone.
    ensures !Writing(c.state) ==> r.1.cr.pg == hw.cr.pg && r.1.cr.fw == hw.cr.fw
    ensures Writing(c.state) ==>
      r.1.cr.snb == hw.cr.snb && r.1.cr.ser == hw.cr.ser && r.1.cr.start == hw.cr.start
    ensures c.state == WriteBusy && r.0.offset != c.offset ==> r.1.cr == hw.cr
    ensures c.state == WriteBusy && !hw.sr.qw && c.offset == c.length && hw.sr.wbne ==>
      r.1.cr == hw.cr.(fw := true)
    ensures c.state == WriteBusy && r.0.state == Idle ==> r.1.cr == hw.cr.(pg := false)
    ensures c.state == WritePending && r.0.offset != c.offset ==>
      r.1.cr == hw.cr.(psize := PsizeFull, pg := true)
    ensures c.state == WritePending && !hw.sr.qw && c.offset == c.length && hw.sr.wbne ==>
      r.1.cr == hw.cr.(psize := PsizeFull, pg := true, fw := true)
    ensures c.state == WritePending && r.0.state == Idle ==>
      r.1.cr == hw.cr.(psize := PsizeFull, pg := false)
    ensures c.state == EraseBusy ==> r.1.cr.(ser := hw.cr.ser) == hw.cr
    // The engine never sets or clears QW or WBNE itself.
    ensures r.1.sr.qw == hw.sr.qw && r.1.sr.wbne == hw.sr.wbne
  {
  }
}

=== FILE: flash_runs.dfy ===
/** Runs of the flash engine: the cooperative main loop calls flash_process
    again and again while the hardware flags change under it.  A run is a
    sequence of flag snapshots, one per call; these lemmas state what a
    finished write or erase leaves behind, whatever the hardware timing. */
module FlashRuns {
  import opened CInts
  import opened Flash

  /** Drive the engine with one snapshot of the status flags per call. */
  function Run(c: FlashCtx, hw: FlashHw, env: seq<Status>): (r: (FlashCtx, FlashHw))
    requires Valid(c)
    ensures Valid(r.0)
    ensures r.0.addr == c.addr && r.0.buffer == c.buffer && r.0.length == c.length
    ensures c.offset <= r.0.offset
    decreases |env|
  {
    if env == [] then (c, hw)
    else
      var next := Process(c, hw.(sr := env[0]));
      Run(next.0, next.1, env[1..])
  }

  /** How many calls of a run store a chunk to memory. */
  function Stores(c: FlashCtx, hw: FlashHw, env: seq<Status>): nat
    requires Valid(c)
    decreases |env|
  {
    if env == [] then 0
    else
      var next := Process(c, hw.(sr := env[0]));
      (if next.0.offset != c.offset then 1 else 0) + Stores(next.0, next.1, env[1..])
  }

  /** Number of `FlashWriteSize` chunks needed for n bytes, rounding up. */
  function Chunks(n: nat): nat
  {
    (n + FlashWriteSize - 1) / FlashWriteSize
  }

  /** The bytes already stored agree with the staged buffer. */
  ghost predicate Committed(c: FlashCtx, mem: Memory)
    requires Valid(c)
  {
    forall j :: 0 <= j < c.offset ==> At(c.addr, j) in mem && mem[At(c.addr, j)] == c.buffer[j]
  }

  /** Every byte outside the target range `[addr, addr + length)` keeps its
      value, and no address outside it is newly written. */
  ghost predicate Untouched(addr: u32, length: nat, mem: Memory, mem': Memory)
  {
    && (forall a :: a in mem && Distance(addr, a) >= length ==> a in mem' && mem'[a] == mem[a])
    && (forall a :: a in mem' ==> a in mem || Distance(addr, a) < length)
  }

  /** Once idle, the engine stays idle and touches nothing, whatever the
      flags do. */
  lemma {:induction false} IdleRunIsInert(c: FlashCtx, hw: FlashHw, env: seq<Status>)
    requires Valid(c) && c.state == Idle
    ensures Run(c, hw, env).0 == c
    ensures Run(c, hw, env).1.mem == hw.mem && Run(c, hw, env).1.cr == hw.cr
    ensures Stores(c, hw, env) == 0
    decreases |env|
  {
    if env != [] {
      IdleRunIsInert(c, hw.(sr := env[0]), env[1..]);
    }
  }

  /** One call keeps the committed prefix committed (extending it by the
      chunk it stores) and stores nothing outside the target range. */
  lemma StepCommits(c: FlashCtx, hw: FlashHw)
    requires Valid(c) && Committed(c, hw.mem)
    ensures Committed(Process(c, hw).0, Process(c, hw).1.mem)
    ensures Untouched(c.addr, c.length, hw.mem, Process(c, hw).1.mem)
  {
    var (c1, hw1) := Process(c, hw);
    if c1.offset != c.offset {
      assert Chunk(c) == c.buffer[c.offset..c1.offset];
      StoreCommits(c.addr, c.buffer, c.length, c.offset, c1.offset, hw.mem);
      StoreUntouched(c.addr, c.buffer, c.length, c.offset, c1.offset, hw.mem);
    }
  }

  /** Storing `buffer[off..off']` at `addr + off` extends a committed prefix
      of length `off` to one of length `off'`. */
  lemma StoreCommits(addr: u32, buffer: seq<byte>, length: nat, off: nat, off': nat, mem: Memory)
    requires off <= off' <= length <= |buffer| && length < 0x1_0000 && off' - off <= FlashWriteSize
    requires forall j :: 0 <= j < off ==> At(addr, j) in mem && mem[At(addr, j)] == buffer[j]
    ensures var m := Store(mem, At(addr, off), buffer[off..off']);
      forall j :: 0 <= j < off' ==> At(addr, j) in m && m[At(addr, j)] == buffer[j]
  {
    var base := At(addr, off);
    var chunk := buffer[off..off'];
    var m := Store(mem, base, chunk);
    forall j | 0 <= j < off'
      ensures At(addr, j) in m && m[At(addr, j)] == buffer[j]
    {
      if j < off {
        StoreSparesBelow(addr, off, |chunk|, j);
      } else {
        StoreHitsAbove(addr, off, j);
        assert chunk[j - off] == buffer[j];
      }
    }
  }

  /** A byte below the cursor lies far (round the address space) from the
      chunk stored at the cursor. */
  lemma StoreSparesBelow(addr: u32, off: nat, n: nat, j: nat)
    requires j < off < 0x1_0000 && n <= FlashWriteSize
    ensures Distance(At(addr, off), At(addr, j)) >= n
  {
    DistanceOfOffsets(addr, off, j);
  }

  /** Byte `j - off` of the chunk stored at `addr + off` lands at `addr + j`. */
  lemma StoreHitsAbove(addr: u32, off: nat, j: nat)
    requires off <= j
    ensures At(At(addr, off), j - off) == At(addr, j)
  {
    WrapAdd(addr + off, j - off);
  }

  /** Storing `buffer[off..off']` at `addr + off` changes nothing outside
      `[addr, addr + length)`. */
  lemma StoreUntouched(addr: u32, buffer: seq<byte>, length: nat, off: nat, off': nat, mem: Memory)
    requires off <= off' <= length <= |buffer| && length < 0x1_0000
    ensures Untouched(addr, length, mem, Store(mem, At(addr, off), buffer[off..off']))
  {
    var m := Store(mem, At(addr, off), buffer[off..off']);
    forall a | a in mem && Distance(addr, a) >= length
      ensures a in m && m[a] == mem[a]
    {
      ShiftedDistance(addr, off, a);
    }
    forall a | a in m
      ensures a in mem || Distance(addr, a) < length
    {
      ShiftedDistance(addr, off, a);
    }
  }

  /** Measuring from `addr + off` instead of `addr` shortens every distance
      of at least `off` by exactly `off`. */
  lemma ShiftedDistance(addr: u32, off: nat, a: u32)
    requires off < Two32
    ensures Distance(addr, a) >= off ==> Distance(At(addr, off), a) == Distance(addr, a) - off
    ensures Distance(addr, a) < off ==> Distance(At(addr, off), a) >= Two32 - off
  {
    var w := At(addr, off);
    var k := if addr + off < Two32 then 0 else 1;
    WrapOf(addr + off, k);
    var d := Distance(addr, a);
    var j := if a >= addr then 0 else 1;
    WrapOf(a - addr, -j);
    if d >= off {
      WrapOf(a - w, k - j);
    } else {
      WrapOf(a - w, k - j - 1);
    }
  }

  lemma UntouchedTrans(addr: u32, length: nat, m0: Memory, m1: Memory, m2: Memory)
    requires Untouched(addr, length, m0, m1) && Untouched(addr, length, m1, m2)
    ensures Untouched(addr, length, m0, m2)
  {
  }

  /** A write that the engine drives to completion leaves exactly the staged
      bytes at `[addr, addr + length)` and nothing else changed, however the
      hardware flags behaved along the way. */
  lemma {:induction false} WriteRunCommits(c: FlashCtx, hw: FlashHw, env: seq<Status>)
    requires Valid(c) && Writing(c.state) && Committed(c, hw.mem)
    ensures Run(c, hw, env).0.state == Idle ==>
      forall j :: 0 <= j < c.length ==>
        At(c.addr, j) in Run(c, hw, env).1.mem && Run(c, hw, env).1.mem[At(c.addr, j)] == c.buffer[j]
    ensures Run(c, hw, env).0.state == Idle ==> Untouched(c.addr, c.length, hw.mem, Run(c, hw, env).1.mem)
    decreases |env|
  {
    if env != [] {
      var hw0 := hw.(sr := env[0]);
      var (c1, hw1) := Process(c, hw0);
      StepCommits(c, hw0);
      assert Run(c, hw, env) == Run(c1, hw1, env[1..]);
      if c1.state == Idle {
        assert c1.offset == c.length;
        IdleRunIsInert(c1, hw1, env[1..]);
      } else {
        WriteRunCommits(c1, hw1, env[1..]);
        if Run(c, hw, env).0.state == Idle {
          UntouchedTrans(c.addr, c.length, hw.mem, hw1.mem, Run(c, hw, env).1.mem);
        }
      }
    }
  }

  /** A completed write stores exactly ceil((length - offset) / 32) chunks:
      full 32-byte chunks and at most one short tail. */
  lemma {:induction false} WriteRunStoreCount(c: FlashCtx, hw: FlashHw, env: seq<Status>)
    requires Valid(c) && Writing(c.state)
    ensures Run(c, hw, env).0.state == Idle ==> Stores(c, hw, env) == Chunks(c.length - c.offset)
    decreases |env|
  {
    if env != [] {
      var hw0 := hw.(sr := env[0]);
      var (c1, hw1) := Process(c, hw0);
      assert Run(c, hw, env) == Run(c1, hw1, env[1..]);
      if c1.state == Idle {
        IdleRunIsInert(c1, hw1, env[1..]);
      } else {
        WriteRunStoreCount(c1, hw1, env[1..]);
        if c1.offset != c.offset {
          var rem := c.length - c.offset;
          if rem >= FlashWriteSize {
            assert Chunks(rem) == 1 + Chunks(rem - FlashWriteSize);
          } else {
            assert Chunks(rem) == 1;
          }
        }
      }
    }
  }

  /** A freshly accepted write, once driven back to idle, has put the caller's
      data at the requested address in ceil(length / 32) stores, and changed
      no byte outside `[addr, addr + length)`. */
  lemma FreshWriteCommits(c: FlashCtx, hw: FlashHw, addr: u32, data: seq<byte>, length: u16, env: seq<Status>)
    requires Valid(c) && !IsBusy(c)
    requires length <= |data| && length <= BufSize
    ensures
      var c1 := WriteAsync(c, addr, data, length).1;
      var r := Run(c1, hw, env);
      r.0.state == Idle ==>
        && (forall j :: 0 <= j < length ==> At(addr, j) in r.1.mem && r.1.mem[At(addr, j)] == data[j])
        && Untouched(addr, length, hw.mem, r.1.mem)
        && Stores(c1, hw, env) == Chunks(length)
  {
    var c1 := WriteAsync(c, addr, data, length).1;
    WriteRunCommits(c1, hw, env);
    WriteRunStoreCount(c1, hw, env);
    var r := Run(c1, hw, env);
    if r.0.state == Idle {
      forall j | 0 <= j < length
        ensures At(addr, j) in r.1.mem && r.1.mem[At(addr, j)] == data[j]
      {
        assert c1.buffer[..length][j] == data[..length][j];
      }
    }
  }

  /** Status flags of a quiet flash: nothing queued, nothing buffered. */
  function Quiet(n: nat): (env: seq<Status>)
    ensures |env| == n
    ensures forall i :: 0 <= i < n ==> !env[i].qw && !env[i].wbne
  {
    seq(n, _ => Status(false, false, false))
  }

  /** On a flash that is never busy, a write needs at most one call per
      chunk plus one to finish: the blocking wrapper's loop runs at most
      that often. */
  lemma {:induction false} QuietWriteFinishes(c: FlashCtx, hw: FlashHw)
    requires Valid(c) && Writing(c.state)
    ensures Run(c, hw, Quiet(Chunks(c.length - c.offset) + 1)).0.state == Idle
    decreases c.length - c.offset
  {
    var env := Quiet(Chunks(c.length - c.offset) + 1);
    var hw0 := hw.(sr := env[0]);
    var (c1, hw1) := Process(c, hw0);
    assert Run(c, hw, env) == Run(c1, hw1, env[1..]);
    if c.offset < c.length {
      assert c1.state == WriteBusy && c1.offset == c.offset + ChunkLen(c);
      var rem := c.length - c.offset;
      if rem >= FlashWriteSize {
        assert Chunks(rem) == 1 + Chunks(rem - FlashWriteSize);
      } else {
        assert Chunks(rem) == 1;
      }
      assert env[1..] == Quiet(Chunks(c1.length - c1.offset) + 1);
      QuietWriteFinishes(c1, hw1);
    } else {
      assert c1.state == Idle;
      IdleRunIsInert(c1, hw1, env[1..]);
    }
  }

  /** An erase, once driven back to idle, has selected the sector of its
      address, dropped the erase command again and stored no byte. */
  lemma {:induction false} EraseRunSelectsSector(c: FlashCtx, hw: FlashHw, env: seq<Status>)
    requires Valid(c) && (c.state == ErasePending || (c.state == EraseBusy && hw.cr.snb == AddrToSector(c.addr)))
    ensures Run(c, hw, env).0.state == Idle ==>
      && Run(c, hw, env).1.cr.snb == AddrToSector(c.addr)
      && !Run(c, hw, env).1.cr.ser
      && Run(c, hw, env).1.mem == hw.mem
    decreases |env|
  {
    if env != [] {
      var hw0 := hw.(sr := env[0]);
      var (c1, hw1) := Process(c, hw0);
      assert Run(c, hw, env) == Run(c1, hw1, env[1..]);
      if c1.state == Idle {
        IdleRunIsInert(c1, hw1, env[1..]);
      } else {
        EraseRunSelectsSector(c1, hw1, env[1..]);
      }
    }
  }
}

=== FILE: gpio.dfy ===
/** Native STM32 GPIO port bit fields (src/gpio.c, include/gpio.h).

    A port is the record of its 32-bit registers.  Each configuration
    function replaces one pin's field in one or more registers and must leave
    the fields of every other pin as they were. */
module Gpio {

  /** A native pin number (uint8_t): the port functions are specified for
      pins 0..15. */
  type Pin = p: bv8 | p < 16

  /** enum Mode: the functional modes of a pin. */
  datatype Mode =
    | Input | InputPullUp | InputPullDown | Analog
    | Output | OpenDrain | OpenDrainPu
    | Alternate | AlternateOd | AlternateOdPu

  /** The value of each enumerator of enum Mode. */
  function ModeCode(m: Mode): (b: bv16)
    ensures b <= 0xFF
  {
    match m
    case Input => 0
    case InputPullUp => 1
    case InputPullDown => 2
    case Analog => 3
    case Output => 4
    case OpenDrain => 5
    case OpenDrainPu => 6
    case Alternate => 7
    case AlternateOd => 8
    case AlternateOdPu => 9
  }

  /** enum Speed: maximum output switching speed. */
  datatype Speed = Low | Medium | Fast | High

  function SpeedCode(s: Speed): (b: bv32)
    ensures b <= 3
  {
    match s
    case Low => 0
    case Medium => 1
    case Fast => 2
    case High => 3
  }

  /** ALTERNATE_FUNC(x): the alternate-function number goes in bits 15:8 of
      a mode word. */
  function AlternateFunc(af: bv16): (w: bv16)
    requires af < 0x100
    ensures w & 0xFF == 0
    ensures w >> 8 == af
  {
    af << 8
  }

  /** The bits 7:0 of a mode word select the functional mode. */
  function ModeByte(mode: bv16): (b: bv16)
    ensures b <= 0xFF
    ensures mode <= 0xFF ==> b == mode
    ensures mode - b == mode & 0xFF00
  {
    mode & 0xFF
  }

  /** gpio_setMode reads the alternate function from bits 11:8. */
  function AfOf(mode: bv16): (a: bv32)
    ensures a <= 0xF
    ensures (a as bv16) << 8 == mode & 0x0F00
  {
    ((mode >> 8) & 0x0F) as bv32
  }

  /** A mode word built as `ALTERNATE_FUNC(af) | m` decodes back into the
      mode byte m and the alternate function af, for any byte m. */
  lemma ModeWordRoundTrip(af: bv16, m: bv16)
    requires af < 16 && m <= 0xFF
    ensures ModeByte(AlternateFunc(af) | m) == m
    ensures AfOf(AlternateFunc(af) | m) == af as bv32
  {
    var w := AlternateFunc(af) | m;
    assert (w >> 8) & 0x0F == af;
  }

  /** The registers of one port. */
  datatype PortRegs = PortRegs(
    moder: bv32, otyper: bv32, ospeedr: bv32, pupdr: bv32,
    idr: bv32, bsrr: bv32, afrl: bv32, afrh: bv32)

  /** Bit positions: `pin * 2` for the 2-bit fields, `pin` for OTYPER, and
      `slot * 4` within an AFR word. */
  function Sh2(q: Pin): bv32 { (q as bv32) << 1 }
  function Sh1(q: bv8): bv32 requires q < 32 { q as bv32 }
  function Sh4(k: bv8): bv32 requires k < 8 { (k as bv32) << 2 }

  /** The 2-bit field of pin q (MODER, OSPEEDR, PUPDR). */
  function Field2(w: bv32, q: Pin): bv32
  {
    (w >> Sh2(q)) & 3
  }

  /** Bit q of a word. */
  function Bit(w: bv32, q: bv8): bv32
    requires q < 32
  {
    (w >> Sh1(q)) & 1
  }

  /** The 4-bit field of slot k of an AFR word. */
  function Nibble(w: bv32, k: bv8): bv32
    requires k < 8
  {
    (w >> Sh4(k)) & 0xF
  }

  /** `w` with its field at `pos` of the given mask replaced by v: the
      clear-then-or idiom of every register update in gpio.c. */
  function Replace(w: bv32, mask: bv32, v: bv32, pos: bv32): bv32
    requires pos < 32
  {
    (w & !(mask << pos)) | (v << pos)
  }

  lemma Replace2Other(w: bv32, v: bv32, p: Pin, q: Pin)
    requires v <= 3 && p != q
    ensures Field2(Replace(w, 3, v, Sh2(p)), q) == Field2(w, q)
  {
  }

  lemma Replace2(w: bv32, v: bv32, p: Pin)
    requires v <= 3
    ensures Field2(Replace(w, 3, v, Sh2(p)), p) == v
    ensures forall q: Pin :: q != p ==> Field2(Replace(w, 3, v, Sh2(p)), q) == Field2(w, q)
  {
    forall q: Pin | q != p
      ensures Field2(Replace(w, 3, v, Sh2(p)), q) == Field2(w, q)
    {
      Replace2Other(w, v, p, q);
    }
  }

  lemma Replace1Other(w: bv32, v: bv32, p: Pin, q: Pin)
    requires v <= 1 && p != q
    ensures Bit(Replace(w, 1, v, Sh1(p)), q) == Bit(w, q)
  {
  }

  lemma Replace1(w: bv32, v: bv32, p: Pin)
    requires v <= 1
    ensures Bit(Replace(w, 1, v, Sh1(p)), p) == v
    ensures forall q: Pin :: q != p ==> Bit(Replace(w, 1, v, Sh1(p)), q) == Bit(w, q)
  {
    forall q: Pin | q != p
      ensures Bit(Replace(w, 1, v, Sh1(p)), q) == Bit(w, q)
    {
      Replace1Other(w, v, p, q);
    }
  }

  /** Bits 31:16 of two words agree (OTYPER's reserved half). */
  predicate HighHalfKept(r: bv32, w: bv32)
  {
    r >> 16 == w >> 16
  }

  /** The 1-bit replacement at a pin 0..15 keeps OTYPER's reserved bits
      31:16. */
  lemma Replace1High(w: bv32, v: bv32, p: Pin)
    requires v <= 1
    ensures HighHalfKept(Replace(w, 1, v, Sh1(p)), w)
  {
  }

  lemma Replace4Other(w: bv32, v: bv32, k: bv8, j: bv8)
    requires v <= 0xF && k < 8 && j < 8 && k != j
    ensures Nibble(Replace(w, 0xF, v, Sh4(k)), j) == Nibble(w, j)
  {
  }

  lemma Replace4(w: bv32, v: bv32, k: bv8)
    requires k < 8 && v <= 0xF
    ensures Nibble(Replace(w, 0xF, v, Sh4(k)), k) == v
    ensures forall j: bv8 :: j < 8 && j != k ==> Nibble(Replace(w, 0xF, v, Sh4(k)), j) == Nibble(w, j)
  {
    forall j: bv8 | j < 8 && j != k
      ensures Nibble(Replace(w, 0xF, v, Sh4(k)), j) == Nibble(w, j)
    {
      Replace4Other(w, v, k, j);
    }
  }

  /** The alternate-function nibble of a pin: AFR[pin / 8], slot pin % 8. */
  function AfField(p: PortRegs, q: Pin): bv32
  {
    if q < 8 then Nibble(p.afrl, q) else Nibble(p.afrh, q - 8)
  }

  /** setGpioAf: replace the pin's alternate-function nibble.  Its one caller
      has already masked af to four bits. */
  function SetGpioAf(p: PortRegs, pin: Pin, af: bv32): (r: PortRegs)
    requires af <= 0xF
    ensures AfField(r, pin) == af
    ensures forall q: Pin :: q != pin ==> AfField(r, q) == AfField(p, q)
    ensures r.moder == p.moder && r.otyper == p.otyper && r.pupdr == p.pupdr
    ensures r.ospeedr == p.ospeedr && r.idr == p.idr && r.bsrr == p.bsrr
  {
    if pin < 8 then
      Replace4(p.afrl, af, pin);
      p.(afrl := Replace(p.afrl, 0xF, af, Sh4(pin)))
    else
      Replace4(p.afrh, af, pin - 8);
      p.(afrh := Replace(p.afrh, 0xF, af, Sh4(pin - 8)))
  }

  /** The field values one mode selects: MODER, OTYPER and PUPDR, and whether
      the alternate-function nibble is written too. */
  datatype PinConfig = PinConfig(moder: bv32, otyper: bv32, pupdr: bv32, alternate: bool)

  predicate WellFormed(cfg: PinConfig)
  {
    cfg.moder <= 3 && cfg.otyper <= 1 && cfg.pupdr <= 3
  }

  /** The switch of gpio_setMode, as written: the case for OPEN_DRAIN_PU
      leaves PUPDR at 00; an unrecognised byte is configured as INPUT. */
  function CaseTable(b: bv16): (cfg: PinConfig)
    ensures WellFormed(cfg)
  {
    if b == 0 then PinConfig(0, 0, 0, false)        // INPUT
    else if b == 1 then PinConfig(0, 0, 1, false)   // INPUT_PULL_UP
    else if b == 2 then PinConfig(0, 0, 2, false)   // INPUT_PULL_DOWN
    else if b == 3 then PinConfig(3, 0, 0, false)   // ANALOG
    else if b == 4 then PinConfig(1, 0, 0, false)   // OUTPUT
    else if b == 5 then PinConfig(1, 1, 0, false)   // OPEN_DRAIN
    else if b == 6 then PinConfig(1, 1, 0, false)   // OPEN_DRAIN_PU
    else if b == 7 then PinConfig(2, 0, 0, true)    // ALTERNATE
    else if b == 8 then PinConfig(2, 1, 0, true)    // ALTERNATE_OD
    else if b == 9 then PinConfig(2, 1, 1, true)    // ALTERNATE_OD_PU
    else PinConfig(0, 0, 0, false)                  // default: INPUT
  }

  /** What each mode means, from the enumerator documentation: MODER 00
      input, 01 output, 10 alternate, 11 analog; OTYPER 1 open drain; PUPDR
      01 pull-up, 10 pull-down. */
  function Intended(m: Mode): (cfg: PinConfig)
    ensures WellFormed(cfg)
  {
    var moder: bv32 :=
      match m
      case Input | InputPullUp | InputPullDown => 0
      case Analog => 3
      case Output | OpenDrain | OpenDrainPu => 1
      case Alternate | AlternateOd | AlternateOdPu => 2;
    var openDrain := m in {OpenDrain, OpenDrainPu, AlternateOd, AlternateOdPu};
    var pupdr: bv32 :=
      if m in {InputPullUp, OpenDrainPu, AlternateOdPu} then 1
      else if m == InputPullDown then 2
      else 0;
    PinConfig(moder, if openDrain then 1 else 0, pupdr, moder == 2)
  }

  /** The mode a mode byte names, if any. */
  function ModeOf(b: bv16): (m: Mode)
    requires b <= 9
    ensures ModeCode(m) == b
  {
    if b == 0 then Input
    else if b == 1 then InputPullUp
    else if b == 2 then InputPullDown
    else if b == 3 then Analog
    else if b == 4 then Output
    else if b == 5 then OpenDrain
    else if b == 6 then OpenDrainPu
    else if b == 7 then Alternate
    else if b == 8 then AlternateOd
    else AlternateOdPu
  }

  /** The switch as its comments describe it: every mode gets its documented
      fields; unrecognised bytes are INPUT. */
  function CorrectedTable(b: bv16): (cfg: PinConfig)
    ensures WellFormed(cfg)
  {
    if b <= 9 then Intended(ModeOf(b)) else Intended(Input)
  }

  /** The case table agrees with the documented meaning of every mode except
      OPEN_DRAIN_PU, which is configured exactly like OPEN_DRAIN: open drain
      without the pull-up its name and comment promise. */
  lemma CaseTableMatchesModes(m: Mode, b: bv16)
    ensures m != OpenDrainPu ==> CaseTable(ModeCode(m)) == Intended(m)
    ensures b > 9 ==> CaseTable(b) == Intended(Input)
    ensures CaseTable(ModeCode(OpenDrainPu)) == Intended(OpenDrain)
    ensures CaseTable(ModeCode(OpenDrainPu)) != Intended(OpenDrainPu)
  {
  }

  /** The corrected table gives every mode its documented fields, and any
      byte that names no mode is configured as INPUT. */
  lemma CorrectedTableMatchesModes(m: Mode, b: bv16)
    ensures CorrectedTable(ModeCode(m)) == Intended(m)
    ensures b > 9 ==> CorrectedTable(b) == Intended(Input)
    ensures CorrectedTable(ModeCode(OpenDrainPu)).pupdr == 1
  {
    assert ModeOf(ModeCode(m)) == m;
  }

  /** Program one pin with a configuration: clear its MODER, OTYPER and PUPDR
      fields, or in the new values, and set the alternate function when the
      configuration calls for it. */
  function Configure(p: PortRegs, pin: Pin, cfg: PinConfig, af: bv32): (r: PortRegs)
    requires WellFormed(cfg) && af <= 0xF
    ensures Field2(r.moder, pin) == cfg.moder
    ensures Bit(r.otyper, pin) == cfg.otyper
    ensures Field2(r.pupdr, pin) == cfg.pupdr
    ensures forall q: Pin :: q != pin ==> SameConfig(r, p, q)
    ensures HighHalfKept(r.otyper, p.otyper)
    ensures cfg.alternate ==> AfField(r, pin) == af
    ensures !cfg.alternate ==> r.afrl == p.afrl && r.afrh == p.afrh
    ensures r.ospeedr == p.ospeedr && r.idr == p.idr && r.bsrr == p.bsrr
  {
    var q := SetModeFields(p, pin, cfg);
    if cfg.alternate then
      var r := SetGpioAf(q, pin, af);
      AfKeepsOthers(p, q, r, pin);
      r
    else
      AfKeepsOthers(p, q, q, pin);
      q
  }

  /** Setting one pin's alternate function after its mode fields leaves every
      other pin's configuration as it was. */
  lemma AfKeepsOthers(p: PortRegs, q: PortRegs, r: PortRegs, pin: Pin)
    requires forall x: Pin :: x != pin ==> SameModeFields(q, p, x)
    requires q.afrl == p.afrl && q.afrh == p.afrh
    requires r.moder == q.moder && r.otyper == q.otyper && r.pupdr == q.pupdr
    requires forall x: Pin :: x != pin ==> AfField(r, x) == AfField(q, x)
    ensures forall x: Pin :: x != pin ==> SameConfig(r, p, x)
  {
    forall x: Pin | x != pin
      ensures SameConfig(r, p, x)
    {
      assert SameModeFields(q, p, x);
      assert AfField(q, x) == AfField(p, x);
    }
  }

  /** The MODER, OTYPER and PUPDR updates of gpio_setMode. */
  function SetModeFields(p: PortRegs, pin: Pin, cfg: PinConfig): (r: PortRegs)
    requires WellFormed(cfg)
    ensures Field2(r.moder, pin) == cfg.moder
    ensures Bit(r.otyper, pin) == cfg.otyper
    ensures Field2(r.pupdr, pin) == cfg.pupdr
    ensures forall q: Pin :: q != pin ==> SameModeFields(r, p, q)
    ensures HighHalfKept(r.otyper, p.otyper)
    ensures r.afrl == p.afrl && r.afrh == p.afrh
    ensures r.ospeedr == p.ospeedr && r.idr == p.idr && r.bsrr == p.bsrr
  {
    Replace2(p.moder, cfg.moder, pin);
    Replace1(p.otyper, cfg.otyper, pin);
    Replace1High(p.otyper, cfg.otyper, pin);
    Replace2(p.pupdr, cfg.pupdr, pin);
    p.(
      moder := Replace(p.moder, 3, cfg.moder, Sh2(pin)),
      otyper := Replace(p.otyper, 1, cfg.otyper, Sh1(pin)),
      pupdr := Replace(p.pupdr, 3, cfg.pupdr, Sh2(pin)))
  }

  /** gpio_setMode, as written. */
  function SetMode(p: PortRegs, pin: Pin, mode: bv16): (r: PortRegs)
    ensures var cfg := CaseTable(ModeByte(mode));
      && Field2(r.moder, pin) == cfg.moder
      && Bit(r.otyper, pin) == cfg.otyper
      && Field2(r.pupdr, pin) == cfg.pupdr
      && (cfg.alternate ==> AfField(r, pin) == AfOf(mode))
      && (!cfg.alternate ==> r.afrl == p.afrl && r.afrh == p.afrh)
    ensures forall q: Pin :: q != pin ==> SameConfig(r, p, q)
    ensures HighHalfKept(r.otyper, p.otyper)
    ensures r.ospeedr == p.ospeedr && r.idr == p.idr && r.bsrr == p.bsrr
  {
    Configure(p, pin, CaseTable(ModeByte(mode)), AfOf(mode))
  }

  /** gpio_setMode with the OPEN_DRAIN_PU case enabling its pull-up. */
  function SetModeCorrected(p: PortRegs, pin: Pin, mode: bv16): (r: PortRegs)
    ensures var cfg := CorrectedTable(ModeByte(mode));
      && Field2(r.moder, pin) == cfg.moder
      && Bit(r.otyper, pin) == cfg.otyper
      && Field2(r.pupdr, pin) == cfg.pupdr
      && (cfg.alternate ==> AfField(r, pin) == AfOf(mode))
      && (!cfg.alternate ==> r.afrl == p.afrl && r.afrh == p.afrh)
    ensures forall q: Pin :: q != pin ==> SameConfig(r, p, q)
    ensures HighHalfKept(r.otyper, p.otyper)
    ensures r.ospeedr == p.ospeedr && r.idr == p.idr && r.bsrr == p.bsrr
  {
    Configure(p, pin, CorrectedTable(ModeByte(mode)), AfOf(mode))
  }

  /** Pin q's MODER, OTYPER and PUPDR fields agree in both ports. */
  ghost predicate SameModeFields(r: PortRegs, p: PortRegs, q: Pin)
  {
    && Field2(r.moder, q) == Field2(p.moder, q)
    && Bit(r.otyper, q) == Bit(p.otyper, q)
    && Field2(r.pupdr, q) == Field2(p.pupdr, q)
  }

  /** Pin q's mode fields and alternate function agree in both ports. */
  ghost predicate SameConfig(r: PortRegs, p: PortRegs, q: Pin)
  {
    SameModeFields(r, p, q) && AfField(r, q) == AfField(p, q)
  }

  /** Configuring a pin with `ALTERNATE_FUNC(af) | m` gives it exactly the
      documented fields of m (and alternate function af for the alternate
      modes), for every mode m, with the corrected table. */
  lemma SetModeCorrectedConfigures(p: PortRegs, pin: Pin, af: bv16, m: Mode)
    requires af < 16
    ensures var r := SetModeCorrected(p, pin, AlternateFunc(af) | ModeCode(m));
      && Field2(r.moder, pin) == Intended(m).moder
      && Bit(r.otyper, pin) == Intended(m).otyper
      && Field2(r.pupdr, pin) == Intended(m).pupdr
      && (Intended(m).alternate ==> AfField(r, pin) == af as bv32)
  {
    ModeWordRoundTrip(af, ModeCode(m));
    CorrectedTableMatchesModes(m, 0);
  }

  /** gpio_setOutputSpeed: replace the pin's OSPEEDR field. */
  function SetOutputSpeed(p: PortRegs, pin: Pin, spd: Speed): (r: PortRegs)
    ensures Field2(r.ospeedr, pin) == SpeedCode(spd)
    ensures forall q: Pin :: q != pin ==> Field2(r.ospeedr, q) == Field2(p.ospeedr, q)
    ensures r.moder == p.moder && r.otyper == p.otyper && r.pupdr == p.pupdr
    ensures r.afrl == p.afrl && r.afrh == p.afrh && r.idr == p.idr && r.bsrr == p.bsrr
  {
    Replace2(p.ospeedr, SpeedCode(spd), pin);
    p.(ospeedr := Replace(p.ospeedr, 3, SpeedCode(spd), Sh2(pin)))
  }

  /** The BSRR word gpio_setPin writes: one bit, in the set half. */
  function SetPinWord(pin: Pin): (w: bv32)
    ensures forall q: bv8 :: q < 32 ==> (Bit(w, q) == 1 <==> q == pin)
  {
    1 << Sh1(pin)
  }

  /** The BSRR word gpio_clearPin writes: one bit, in the reset half. */
  function ClearPinWord(pin: Pin): (w: bv32)
    ensures forall q: bv8 :: q < 32 ==> (Bit(w, q) == 1 <==> q == pin + 16)
  {
    1 << Sh1(pin + 16)
  }

  /** The set and reset words of any two pins never share a bit, and the
      reset word of a pin is its set word moved to the upper half. */
  lemma SetClearWordsDisjoint(p: Pin, q: Pin)
    ensures SetPinWord(p) & ClearPinWord(q) == 0
    ensures ClearPinWord(p) == SetPinWord(p) << 16
  {
  }

  /** gpio_readPin: 1 when the pin's input bit is set, 0 otherwise. */
  function ReadPin(idr: bv32, pin: Pin): (v: bv8)
    ensures v == 0 || v == 1
    ensures v == 1 <==> Bit(idr, pin) == 1
  {
    if idr & (1 << Sh1(pin)) != 0 then 1 else 0
  }
}

=== FILE: gpio_dispatch.dfy ===
/** The device-independent GPIO interface (include/gpio.h, src/gpio.c): a
    gpioDev carries a table of four operations, and gpioDev_* / gpioPin_*
    forward each call to the table of the device named.  Two tables exist:
    the native ports GpioA..GpioE and the shift-register extender extGpio.

    Both tables forward to the operations as written, so OPEN_DRAIN_PU
    configures no pull-up and the extender's pin 24 reaches pin 16's bit.
    The same dispatch over the corrected operations follows at the end. */
module GpioDispatch {
  import Gpio
  import ShiftReg

  /** The two operation tables: gpioApi and gpioShiftReg_ops. */
  datatype Api = NativeApi | ShiftRegApi

  datatype Port = PortA | PortB | PortC | PortD | PortE

  /** The device's private data: a port for native devices, nothing for the
      extender. */
  datatype Priv = NoPriv | PortPriv(port: Port)

  /** struct gpioDev. */
  datatype GpioDev = GpioDev(api: Api, priv: Priv)

  /** struct gpioPin. */
  datatype GpioPin = GpioPin(port: GpioDev, pin: bv8)

  /** A device whose table and private data agree. */
  predicate WellFormedDev(dev: GpioDev)
  {
    dev.api == NativeApi ==> dev.priv.PortPriv?
  }

  /** The devices the firmware defines. */
  const GpioA := GpioDev(NativeApi, PortPriv(PortA))
  const GpioB := GpioDev(NativeApi, PortPriv(PortB))
  const GpioC := GpioDev(NativeApi, PortPriv(PortC))
  const GpioD := GpioDev(NativeApi, PortPriv(PortD))
  const GpioE := GpioDev(NativeApi, PortPriv(PortE))
  const ExtGpio := GpioDev(ShiftRegApi, NoPriv)

  /** Everything the operations can touch: the registers of the five ports
      and the extender's shadow.  A port's `bsrr` holds the last word
      written to it, so an extender update, which ends by raising its strobe
      line on port E, leaves that port's BSRR holding the strobe's set word;
      the clock and data words shifted out before it are not kept. */
  datatype Board = Board(ports: map<Port, Gpio.PortRegs>, shadow: ShiftReg.Shadow)

  predicate WellFormedBoard(b: Board)
  {
    forall p: Port :: p in b.ports
  }

  /** GPIOEXT_STR, the extender's storage strobe: pin 8 of port E. */
  const StrPort := PortE
  const StrPin: bv8 := 8

  /** The ports after an extender update: the last write is
      gpio_setPin(GPIOEXT_STR), which leaves port E's BSRR holding the
      strobe pin's set word. */
  function Strobed(ports: map<Port, Gpio.PortRegs>): (r: map<Port, Gpio.PortRegs>)
    requires StrPort in ports
    ensures r.Keys == ports.Keys
    ensures forall p: Port :: p != StrPort && p in ports ==> r[p] == ports[p]
    ensures r[StrPort].bsrr == Gpio.SetPinWord(StrPin)
    ensures r[StrPort] == ports[StrPort].(bsrr := r[StrPort].bsrr)
  {
    ports[StrPort := ports[StrPort].(bsrr := Gpio.SetPinWord(StrPin))]
  }

  /** gpioApi_mode: pins above 15 are refused with -1; any other pin is
      configured and 0 returned. */
  function NativeMode(b: Board, port: Port, pin: bv8, mode: bv16): (r: (int, Board))
    requires WellFormedBoard(b)
    ensures WellFormedBoard(r.1)
    ensures r.0 == -1 <==> pin > 15
    ensures r.0 == 0 || r.0 == -1
    ensures r.0 == -1 ==> r.1 == b
    ensures r.0 == 0 ==> r.1 == b.(ports := b.ports[port := Gpio.SetMode(b.ports[port], pin, mode)])
  {
    if pin > 15 then (-1, b)
    else (0, b.(ports := b.ports[port := Gpio.SetMode(b.ports[port], pin, mode)]))
  }

  /** gpioShiftReg_mode: the extender's outputs cannot be reconfigured. */
  function ExtMode(b: Board, pin: bv8, mode: bv16): (r: (int, Board))
    ensures r == (-1, b)
  {
    (-1, b)
  }

  /** The `mode` entry of a device's table. */
  function ApiMode(dev: GpioDev, pin: bv8, mode: bv16, b: Board): (r: (int, Board))
    requires WellFormedDev(dev) && WellFormedBoard(b)
    ensures WellFormedBoard(r.1)
    ensures r.0 == 0 <==> dev.api == NativeApi && pin < 16
    ensures r.0 != 0 ==> r == (-1, b)
  {
    match dev.api
    case NativeApi => NativeMode(b, dev.priv.port, pin, mode)
    case ShiftRegApi => ExtMode(b, pin, mode)
  }

  /** The `set` / `clear` entries: a native port receives the pin's BSRR
      word; the extender updates its shadow and, for a pin it accepts,
      pulses its strobe on port E. */
  function ApiWrite(dev: GpioDev, pin: bv8, high: bool, b: Board): (r: Board)
    requires WellFormedDev(dev) && WellFormedBoard(b)
    requires dev.api == NativeApi ==> pin < 16
    ensures WellFormedBoard(r)
    ensures dev.api == NativeApi ==>
      && r.shadow == b.shadow
      && (forall p: Port :: p != dev.priv.port ==> r.ports[p] == b.ports[p])
      && r.ports[dev.priv.port] == b.ports[dev.priv.port].(bsrr := r.ports[dev.priv.port].bsrr)
    ensures dev.api == ShiftRegApi ==> forall p: Port :: p != StrPort ==> r.ports[p] == b.ports[p]
    ensures dev.api == ShiftRegApi && ShiftReg.InRange(pin as int) ==>
      && r.ports[StrPort] == b.ports[StrPort].(bsrr := Gpio.SetPinWord(StrPin))
      && ShiftReg.Read(r.shadow, pin as int) == high
    ensures dev.api == ShiftRegApi && !ShiftReg.InRange(pin as int) ==> r == b
  {
    match dev.api
    case NativeApi =>
      var p := dev.priv.port;
      var word := if high then Gpio.SetPinWord(pin) else Gpio.ClearPinWord(pin);
      b.(ports := b.ports[p := b.ports[p].(bsrr := word)])
    case ShiftRegApi =>
      if ShiftReg.InRange(pin as int) then
        Board(Strobed(b.ports), ShiftReg.Modify(b.shadow, pin as int, high))
      else b
  }

  /** The `read` entry: a native pin's input bit; an extender output's
      shadow bit. */
  function ApiRead(dev: GpioDev, pin: bv8, b: Board): (v: bool)
    requires WellFormedDev(dev) && WellFormedBoard(b)
    requires dev.api == NativeApi ==> pin < 16
    ensures dev.api == NativeApi ==> (v <==> Gpio.Bit(b.ports[dev.priv.port].idr, pin) == 1)
    ensures dev.api == ShiftRegApi && pin > 24 ==> !v
    ensures dev.api == ShiftRegApi && pin == 24 ==> (v <==> ShiftReg.Read(b.shadow, 16))
  {
    match dev.api
    case NativeApi => Gpio.ReadPin(b.ports[dev.priv.port].idr, pin) != 0
    case ShiftRegApi =>
      ShiftReg.Pin24AliasesPin16(b.shadow, false);
      ShiftReg.Read(b.shadow, pin as int)
  }

  /** gpioDev_setMode: the device's own `mode` operation, with the same pin,
      its result returned unchanged.  Only a native device accepts, and then
      only pins 0..15; nothing but that pin's configuration changes. */
  function DevSetMode(dev: GpioDev, pin: bv8, mode: bv16, b: Board): (r: (int, Board))
    requires WellFormedDev(dev) && WellFormedBoard(b)
    ensures r == ApiMode(dev, pin, mode, b)
    ensures r.0 == 0 <==> dev.api == NativeApi && pin < 16
    ensures r.0 != 0 ==> r.0 == -1 && r.1 == b
    ensures r.0 == 0 ==>
      && r.1.shadow == b.shadow
      && forall p: Port :: p != dev.priv.port ==> r.1.ports[p] == b.ports[p]
  {
    ApiMode(dev, pin, mode, b)
  }

  /** gpioDev_set and gpioDev_clear. */
  function DevSet(dev: GpioDev, pin: bv8, b: Board): (r: Board)
    requires WellFormedDev(dev) && WellFormedBoard(b)
    requires dev.api == NativeApi ==> pin < 16
    ensures r == ApiWrite(dev, pin, true, b)
    ensures dev.api == NativeApi ==>
      && r.shadow == b.shadow
      && r.ports == b.ports[dev.priv.port := b.ports[dev.priv.port].(bsrr := Gpio.SetPinWord(pin))]
    ensures dev.api == ShiftRegApi && pin <= 24 ==>
      r.ports == b.ports[StrPort := b.ports[StrPort].(bsrr := Gpio.SetPinWord(StrPin))]
      && ShiftReg.Read(r.shadow, pin as int)
    ensures dev.api == ShiftRegApi && pin > 24 ==> r == b
  {
    ApiWrite(dev, pin, true, b)
  }

  function DevClear(dev: GpioDev, pin: bv8, b: Board): (r: Board)
    requires WellFormedDev(dev) && WellFormedBoard(b)
    requires dev.api == NativeApi ==> pin < 16
    ensures r == ApiWrite(dev, pin, false, b)
    ensures dev.api == NativeApi ==>
      && r.shadow == b.shadow
      && r.ports == b.ports[dev.priv.port := b.ports[dev.priv.port].(bsrr := Gpio.ClearPinWord(pin))]
    ensures dev.api == ShiftRegApi && pin <= 24 ==>
      r.ports == b.ports[StrPort := b.ports[StrPort].(bsrr := Gpio.SetPinWord(StrPin))]
    ensures dev.api == ShiftRegApi ==> !ShiftReg.Read(r.shadow, pin as int)
    ensures dev.api == ShiftRegApi && pin > 24 ==> r == b
  {
    ApiWrite(dev, pin, false, b)
  }

  /** gpioDev_read. */
  function DevRead(dev: GpioDev, pin: bv8, b: Board): (v: bool)
    requires WellFormedDev(dev) && WellFormedBoard(b)
    requires dev.api == NativeApi ==> pin < 16
    ensures v == ApiRead(dev, pin, b)
    ensures dev.api == NativeApi ==> (v <==> Gpio.Bit(b.ports[dev.priv.port].idr, pin) == 1)
    ensures dev.api == ShiftRegApi ==> (v <==> ShiftReg.Read(b.shadow, pin as int))
    ensures dev.api == ShiftRegApi ==> (v ==> pin <= 24)
  {
    ApiRead(dev, pin, b)
  }

  /** gpioPin_*: the same operations through a pin descriptor, forwarding
      the descriptor's device and pin. */
  function PinSetMode(gp: GpioPin, mode: bv16, b: Board): (r: (int, Board))
    requires WellFormedDev(gp.port) && WellFormedBoard(b)
    ensures r == DevSetMode(gp.port, gp.pin, mode, b)
  {
    ApiMode(gp.port, gp.pin, mode, b)
  }

  function PinSet(gp: GpioPin, b: Board): (r: Board)
    requires WellFormedDev(gp.port) && WellFormedBoard(b)
    requires gp.port.api == NativeApi ==> gp.pin < 16
    ensures r == DevSet(gp.port, gp.pin, b)
  {
    ApiWrite(gp.port, gp.pin, true, b)
  }

  function PinClear(gp: GpioPin, b: Board): (r: Board)
    requires WellFormedDev(gp.port) && WellFormedBoard(b)
    requires gp.port.api == NativeApi ==> gp.pin < 16
    ensures r == DevClear(gp.port, gp.pin, b)
  {
    ApiWrite(gp.port, gp.pin, false, b)
  }

  function PinRead(gp: GpioPin, b: Board): (v: bool)
    requires WellFormedDev(gp.port) && WellFormedBoard(b)
    requires gp.port.api == NativeApi ==> gp.pin < 16
    ensures v == DevRead(gp.port, gp.pin, b)
  {
    ApiRead(gp.port, gp.pin, b)
  }

  /** Through the interface, an extender output from 0 to 24 reads back
      what was last written to it, a pin above 24 is ignored, and writing
      one of pins 0..23 changes no other of them. */
  lemma ExtWriteThenRead(b: Board, pin: bv8, other: bv8, high: bool)
    requires WellFormedBoard(b)
    ensures var w := if high then DevSet(ExtGpio, pin, b) else DevClear(ExtGpio, pin, b);
      && (pin <= 24 ==> DevRead(ExtGpio, pin, w) == high)
      && (pin > 24 ==> w == b)
      && (pin < 24 && other < 24 && other != pin ==>
            DevRead(ExtGpio, other, w) == DevRead(ExtGpio, other, b))
  {
    var w := if high then DevSet(ExtGpio, pin, b) else DevClear(ExtGpio, pin, b);
    assert w.shadow == ShiftReg.Modify(b.shadow, pin as int, high);
    if pin < 24 && other < 24 && other != pin {
      ShiftReg.ModifyIsLocal(b.shadow, pin as int, other as int, high);
    }
  }

  /** Pin 24 of the extender is pin 16 under another number: setting,
      clearing and reading it set, clear and read pin 16. */
  lemma ExtPin24IsPin16(b: Board)
    requires WellFormedBoard(b)
    ensures DevSet(ExtGpio, 24, b) == DevSet(ExtGpio, 16, b)
    ensures DevClear(ExtGpio, 24, b) == DevClear(ExtGpio, 16, b)
    ensures DevRead(ExtGpio, 24, b) == DevRead(ExtGpio, 16, b)
  {
    ShiftReg.Pin24AliasesPin16(b.shadow, true);
    ShiftReg.Pin24AliasesPin16(b.shadow, false);
  }

  /** Through the interface, setting or clearing a native pin writes exactly
      that pin's BSRR word to its own port, and nothing else. */
  lemma NativeWriteIsLocal(b: Board, dev: GpioDev, pin: bv8, high: bool)
    requires WellFormedBoard(b) && WellFormedDev(dev) && dev.api == NativeApi && pin < 16
    ensures var r := if high then DevSet(dev, pin, b) else DevClear(dev, pin, b);
      && r.shadow == b.shadow
      && (forall p: Port :: p != dev.priv.port ==> r.ports[p] == b.ports[p])
      && r.ports[dev.priv.port].bsrr == (if high then Gpio.SetPinWord(pin) else Gpio.ClearPinWord(pin))
  {
  }

  // -----------------------------------------------------------------------
  // The dispatch over the corrected operations: OPEN_DRAIN_PU enables its
  // pull-up and the extender refuses every pin from 24 up.

  /** gpioApi_mode over the corrected case table. */
  function CorrectedNativeMode(b: Board, port: Port, pin: bv8, mode: bv16): (r: (int, Board))
    requires WellFormedBoard(b)
    ensures WellFormedBoard(r.1)
    ensures r.0 == -1 <==> pin > 15
    ensures r.0 == 0 || r.0 == -1
    ensures r.0 == -1 ==> r.1 == b
    ensures r.0 == 0 ==> r.1 == b.(ports := b.ports[port := Gpio.SetModeCorrected(b.ports[port], pin, mode)])
  {
    if pin > 15 then (-1, b)
    else (0, b.(ports := b.ports[port := Gpio.SetModeCorrected(b.ports[port], pin, mode)]))
  }

  /** The `set` / `clear` entries with the corrected extender guard. */
  function CorrectedApiWrite(dev: GpioDev, pin: bv8, high: bool, b: Board): (r: Board)
    requires WellFormedDev(dev) && WellFormedBoard(b)
    requires dev.api == NativeApi ==> pin < 16
    ensures dev.api == NativeApi ==> r == ApiWrite(dev, pin, high, b)
    ensures dev.api == ShiftRegApi && pin < 24 ==>
      && r.ports == b.ports[StrPort := b.ports[StrPort].(bsrr := Gpio.SetPinWord(StrPin))]
      && ShiftReg.Read(r.shadow, pin as int) == high
    ensures dev.api == ShiftRegApi && pin >= 24 ==> r == b
  {
    match dev.api
    case NativeApi => ApiWrite(dev, pin, high, b)
    case ShiftRegApi =>
      if pin < 24 then
        Board(Strobed(b.ports), ShiftReg.ModifyCorrected(b.shadow, pin as int, high))
      else b
  }

  /** The `read` entry with the corrected extender guard. */
  function CorrectedApiRead(dev: GpioDev, pin: bv8, b: Board): (v: bool)
    requires WellFormedDev(dev) && WellFormedBoard(b)
    requires dev.api == NativeApi ==> pin < 16
    ensures dev.api == NativeApi ==> v == ApiRead(dev, pin, b)
    ensures dev.api == ShiftRegApi && pin >= 24 ==> !v
    ensures dev.api == ShiftRegApi && pin < 24 ==> v == ApiRead(dev, pin, b)
  {
    match dev.api
    case NativeApi => ApiRead(dev, pin, b)
    case ShiftRegApi => ShiftReg.ReadCorrected(b.shadow, pin as int)
  }

  /** With the corrected guard, every extender output reads back what was
      last written to it, writing it changes no other output, and pins from
      24 up are neither written nor read. */
  lemma CorrectedExtWriteThenRead(b: Board, pin: bv8, other: bv8, high: bool)
    requires WellFormedBoard(b)
    ensures var w := CorrectedApiWrite(ExtGpio, pin, high, b);
      && (pin < 24 ==> CorrectedApiRead(ExtGpio, pin, w) == high)
      && (other != pin ==> CorrectedApiRead(ExtGpio, other, w) == CorrectedApiRead(ExtGpio, other, b))
      && (pin >= 24 ==> w == b && !CorrectedApiRead(ExtGpio, pin, w))
  {
    var w := CorrectedApiWrite(ExtGpio, pin, high, b);
    assert w.shadow == ShiftReg.ModifyCorrected(b.shadow, pin as int, high);
    ShiftReg.CorrectedIsExact(b.shadow, pin as int, other as int, high);
  }
}

=== FILE: hex.dfy ===
/** Upper-case hexadecimal digits, shared by the USB serial-number string
    (get_serial in src/usb_descriptors.c) and printUnsignedInt in
    src/main.c; both index the table "0123456789ABCDEF" by a nibble. */
module Hex {

  /** The lookup table both sources declare. */
  const Table: string := "0123456789ABCDEF"

  /** The digit for a nibble: '0'..'9' then 'A'..'F'. */
  function Digit(n: int): (c: char)
    requires 0 <= n < 16
    ensures '0' <= c <= '9' || 'A' <= c <= 'F'
  {
    if n < 10 then ('0' as int + n) as char else ('A' as int + n - 10) as char
  }

  /** The arithmetic definition agrees with the source's lookup table. */
  lemma DigitIsTableEntry(n: int)
    requires 0 <= n < 16
    ensures Digit(n) == Table[n]
  {
  }

  predicate IsDigit(c: char)
  {
    '0' <= c <= '9' || 'A' <= c <= 'F'
  }

  /** The nibble an upper-case hex digit stands for. */
  function Value(c: char): (v: int)
    requires IsDigit(c)
    ensures 0 <= v < 16
  {
    if c <= '9' then c as int - '0' as int else c as int - 'A' as int + 10
  }

  /** Digit and Value are inverse: every nibble is spelled by exactly one
      digit. */
  lemma DigitValue(n: int, c: char)
    requires 0 <= n < 16
    ensures Value(Digit(n)) == n
    ensures IsDigit(c) ==> Digit(Value(c)) == c
  {
  }

  function Pow16(n: nat): (p: nat)
    ensures p >= 1
  {
    if n == 0 then 1 else 16 * Pow16(n - 1)
  }

  predicate AllDigits(s: string)
  {
    forall i :: 0 <= i < |s| ==> IsDigit(s[i])
  }

  /** The number a string of hex digits spells, most significant first. */
  function Number(s: string): (v: nat)
    requires AllDigits(s)
    ensures v < Pow16(|s|)
  {
    if |s| == 0 then 0
    else
      var p := Pow16(|s| - 1);
      ScaleBound(Value(s[0]), p);
      Value(s[0]) * p + Number(s[1..])
  }

  lemma ScaleBound(d: int, p: nat)
    requires 0 <= d < 16
    ensures 0 <= d * p <= 15 * p
  {
  }
}

=== FILE: shift_reg.dfy ===
/** The 24-output GPIO extender behind the shift-register gpioDev
    (src/gpio.c): three daisy-chained 8-bit shift registers whose contents
    are mirrored in a three-byte shadow.  Only the shadow update is modelled;
    shifting it out over the bit-banged lines is not. */
module ShiftReg {
  import opened CInts

  /** srData_extGpio: byte 0 is shifted out first, so it ends in the last
      register of the chain, which drives pins 16..23. */
  type Shadow = s: seq<bv8> | |s| == 3 witness [0, 0, 0]

  /** C's `/` on signed operands truncates toward zero. */
  function CDiv(a: int, b: int): int
    requires b > 0
  {
    if a >= 0 then a / b else -((-a) / b)
  }

  /** The shadow byte a pin lives in: `(24 - 1 - pin) / 8`, evaluated in int
      before being stored in a size_t. */
  function ByteOf(pin: u8): int
  {
    CDiv(24 - 1 - pin, 8)
  }

  /** The bit of that byte: `pin % 8`. */
  function BitOf(pin: u8): int
  {
    pin % 8
  }

  /** `1 << bit` for a bit index 0..7. */
  function Mask(bit: int): (m: bv8)
    requires 0 <= bit < 8
  {
    (1 as bv8) << bit
  }

  /** The eight masks, one bit each. */
  lemma MaskTable(bit: int)
    requires 0 <= bit < 8
    ensures Mask(bit) == [1, 2, 4, 8, 16, 32, 64, 128][bit]
  {
  }

  /** Masks of different bits do not overlap. */
  lemma MasksDisjoint(bit: int, other: int)
    requires 0 <= bit < 8 && 0 <= other < 8 && bit != other
    ensures Mask(bit) & Mask(other) == 0
  {
    MaskTable(bit);
    MaskTable(other);
  }

  function TestBit(x: bv8, bit: int): bool
    requires 0 <= bit < 8
  {
    x & Mask(bit) != 0
  }

  /** Setting or clearing one bit of a byte decides that bit. */
  lemma SetBitSame(x: bv8, bit: int)
    requires 0 <= bit < 8
    ensures TestBit(x | Mask(bit), bit)
  {
    MaskTable(bit);
    SetClearSame(x, Mask(bit));
  }

  lemma ClearBitSame(x: bv8, bit: int)
    requires 0 <= bit < 8
    ensures !TestBit(x & !Mask(bit), bit)
  {
    MaskTable(bit);
    SetClearSame(x, Mask(bit));
  }

  /** Setting or clearing one bit leaves every other bit as it was. */
  lemma SetBitOther(x: bv8, bit: int, other: int)
    requires 0 <= bit < 8 && 0 <= other < 8 && other != bit
    ensures TestBit(x | Mask(bit), other) == TestBit(x, other)
  {
    MasksDisjoint(bit, other);
    SetClearOther(x, Mask(bit), Mask(other));
  }

  lemma ClearBitOther(x: bv8, bit: int, other: int)
    requires 0 <= bit < 8 && 0 <= other < 8 && other != bit
    ensures TestBit(x & !Mask(bit), other) == TestBit(x, other)
  {
    MasksDisjoint(bit, other);
    SetClearOther(x, Mask(bit), Mask(other));
  }

  lemma SetClearSame(x: bv8, m: bv8)
    requires m != 0
    ensures (x | m) & m != 0
    ensures (x & !m) & m == 0
  {
  }

  /** Masks of two different bits do not overlap. */
  lemma SetClearOther(x: bv8, m: bv8, n: bv8)
    requires m & n == 0
    ensures (x | m) & n == x & n
    ensures (x & !m) & n == x & n
  {
  }

  /** The guard of gpioShiftReg_modify and gpioShiftReg_read, as written. */
  predicate InRange(pin: u8)
  {
    pin <= 24
  }

  /** gpioShiftReg_modify: set or clear the pin's shadow bit (then the whole
      shadow is shifted out); pins above 24 are ignored. */
  function Modify(s: Shadow, pin: u8, state: bool): (r: Shadow)
    ensures !InRange(pin) ==> r == s
    ensures InRange(pin) ==> 0 <= ByteOf(pin) < 3 && 0 <= BitOf(pin) < 8
    ensures InRange(pin) ==> Read(r, pin) == state
  {
    if !InRange(pin) then s
    else
      var byte := ByteOf(pin);
      var bit := BitOf(pin);
      if state then
        SetBitSame(s[byte], bit);
        s[byte := s[byte] | Mask(bit)]
      else
        ClearBitSame(s[byte], bit);
        s[byte := s[byte] & !Mask(bit)]
  }

  /** gpioShiftReg_set and gpioShiftReg_clear. */
  function Set(s: Shadow, pin: u8): (r: Shadow)
    ensures InRange(pin) ==> Read(r, pin)
  {
    Modify(s, pin, true)
  }

  function Clear(s: Shadow, pin: u8): (r: Shadow)
    ensures !Read(r, pin)
  {
    Modify(s, pin, false)
  }

  /** gpioShiftReg_read: the pin's shadow bit; false above pin 24. */
  function Read(s: Shadow, pin: u8): (v: bool)
    ensures !InRange(pin) ==> !v
  {
    if !InRange(pin) then false
    else TestBit(s[ByteOf(pin)], BitOf(pin))
  }

  /** gpioShiftReg_init clears the shadow. */
  function Init(): (s: Shadow)
    ensures forall pin: u8 :: !Read(s, pin)
  {
    [0, 0, 0]
  }

  /** Pins 0..7 live in byte 2, pins 8..15 in byte 1 and pins 16..23 in byte
      0; no two of the 24 pins share a bit. */
  lemma PinLayout(p: u8, q: u8)
    requires p < 24 && q < 24
    ensures ByteOf(p) == 2 - p / 8 && BitOf(p) == p % 8
    ensures p != q ==> ByteOf(p) != ByteOf(q) || BitOf(p) != BitOf(q)
  {
  }

  /** Changing one of the 24 pins leaves every other pin's bit as it was. */
  lemma ModifyIsLocal(s: Shadow, p: u8, q: u8, state: bool)
    requires p < 24 && q < 24 && p != q
    ensures Read(Modify(s, p, state), q) == Read(s, q)
  {
    PinLayout(p, q);
    if ByteOf(p) == ByteOf(q) {
      if state {
        SetBitOther(s[ByteOf(p)], BitOf(p), BitOf(q));
      } else {
        ClearBitOther(s[ByteOf(p)], BitOf(p), BitOf(q));
      }
    } else {
      OtherByte(s, p, q, state);
    }
  }

  /** A write to one shadow byte leaves the pins of the other bytes alone. */
  lemma OtherByte(s: Shadow, p: u8, q: u8, state: bool)
    requires p < 24 && q < 24 && ByteOf(p) != ByteOf(q)
    ensures Modify(s, p, state)[ByteOf(q)] == s[ByteOf(q)]
  {
  }

  /** Pin 24 passes the guard, and as (24 - 1 - 24) / 8 truncates to 0 it
      lands on byte 0 bit 0: the bit of pin 16. */
  lemma Pin24AliasesPin16(s: Shadow, state: bool)
    ensures Modify(s, 24, state) == Modify(s, 16, state)
    ensures Read(s, 24) == Read(s, 16)
    ensures Read(Modify(s, 16, state), 24) == state
  {
    assert ByteOf(24) == 0 == ByteOf(16);
  }

  /** The guard as intended: the chain has 24 outputs, 0..23. */
  predicate InRangeCorrected(pin: u8)
  {
    pin < 24
  }

  /** gpioShiftReg_modify with the guard rejecting every pin from 24 up. */
  function ModifyCorrected(s: Shadow, pin: u8, state: bool): (r: Shadow)
    ensures pin >= 24 ==> r == s
    ensures pin < 24 ==> Read(r, pin) == state
  {
    if !InRangeCorrected(pin) then s else Modify(s, pin, state)
  }

  /** gpioShiftReg_read with the corrected guard. */
  function ReadCorrected(s: Shadow, pin: u8): (v: bool)
    ensures v ==> pin < 24
    ensures pin < 24 ==> (v <==> Read(s, pin))
  {
    InRangeCorrected(pin) && Read(s, pin)
  }

  /** With the corrected guard, writing a pin sets exactly its own bit, and
      every pin from 24 up (including 24) neither changes nor reads any
      bit. */
  lemma CorrectedIsExact(s: Shadow, p: u8, q: u8, state: bool)
    ensures p < 24 ==> ReadCorrected(ModifyCorrected(s, p, state), p) == state
    ensures p != q ==> ReadCorrected(ModifyCorrected(s, p, state), q) == ReadCorrected(s, q)
    ensures p >= 24 ==> ModifyCorrected(s, p, state) == s && !ReadCorrected(s, p)
  {
    if p < 24 && q < 24 && p != q {
      ModifyIsLocal(s, p, q, state);
    }
  }
}

=== FILE: usb_strings.dfy ===
/** String descriptors (src/usb_descriptors.c): the answer to GET
    STRING DESCRIPTOR, an array of UTF-16 code units whose first unit is the
    descriptor header of section 9.6.7 of the USB 2.0 specification (bLength
    in the low byte, bDescriptorType STRING = 3 in the high byte), and the
    serial-number string spelled from the chip's 96-bit unique ID. */
module UsbStrings {
  import Hex
  import opened CInts

  datatype Option<T> = None | Some(value: T)

  /** A UTF-16 code unit (uint16_t). */
  type Unit = u16

  /** get_unique_id always reports 12 bytes; reading them from UID_BASE is
      the hardware's business, so the bytes are a parameter. */
  const UidLength: nat := 12
  type Uid = s: seq<u8> | |s| == UidLength witness [0, 0, 0, 0, 0, 0, 0, 0, 0, 0, 0, 0]

  /** An 8-bit character stored in a uint16_t: zero extension. */
  function Widen(c: char): (u: Unit)
    requires c as int < 0x100
    ensures u == c as int
  {
    c as int
  }

  /** Whether a code unit is an upper-case hex digit. */
  predicate IsDigitUnit(u: Unit)
  {
    u < 0x100 && Hex.IsDigit(u as char)
  }

  function DigitOfUnit(u: Unit): int
    requires IsDigitUnit(u)
  {
    Hex.Value(u as char)
  }

  /** The high and low nibble of a byte: `b >> 4` and `b & 0xF` on an
      unsigned value. */
  function High(b: u8): int { b / 16 }
  function Low(b: u8): int { b % 16 }

  /** get_serial's inner loop for one UID byte: the digit of the high nibble
      (j = 1, stored at 2i), then the low nibble's (j = 0, stored at
      2i + 1). */
  function ByteUnits(b: u8): (u: seq<Unit>)
    ensures |u| == 2
  {
    [Widen(Hex.Digit(High(b))), Widen(Hex.Digit(Low(b)))]
  }

  /** get_serial's outer loop over a run of UID bytes. */
  function Encode(bytes: seq<u8>): (u: seq<Unit>)
    ensures |u| == 2 * |bytes|
  {
    if |bytes| == 0 then [] else ByteUnits(bytes[0]) + Encode(bytes[1..])
  }

  /** Byte i of the UID is spelled at units 2i (high nibble) and 2i + 1
      (low nibble). */
  lemma {:induction false} EncodeAt(bytes: seq<u8>, i: nat)
    requires i < |bytes|
    ensures Encode(bytes)[2 * i] == Widen(Hex.Digit(High(bytes[i])))
    ensures Encode(bytes)[2 * i + 1] == Widen(Hex.Digit(Low(bytes[i])))
  {
    if i > 0 {
      EncodeAt(bytes[1..], i - 1);
    }
  }

  /** Reading a hex serial back: two digits per byte, high nibble first.
      Anything that is not an even run of upper-case hex digits is
      rejected. */
  function Decode(u: seq<Unit>): (r: Option<seq<u8>>)
    ensures r.Some? ==> 2 * |r.value| == |u|
  {
    if |u| == 0 then Some([])
    else if |u| == 1 || !IsDigitUnit(u[0]) || !IsDigitUnit(u[1]) then None
    else
      match Decode(u[2..])
      case None => None
      case Some(rest) => Some([DigitOfUnit(u[0]) * 16 + DigitOfUnit(u[1])] + rest)
  }

  /** The serial string reads back as the bytes it was spelled from. */
  lemma {:induction false} DecodeEncode(bytes: seq<u8>)
    ensures Decode(Encode(bytes)) == Some(bytes)
  {
    if |bytes| > 0 {
      var b := bytes[0];
      var u := Encode(bytes);
      assert u[..2] == ByteUnits(b);
      Hex.DigitValue(High(b), '0');
      Hex.DigitValue(Low(b), '0');
      assert DigitOfUnit(u[0]) * 16 + DigitOfUnit(u[1]) == b;
      assert u[2..] == Encode(bytes[1..]);
      DecodeEncode(bytes[1..]);
      assert bytes == [b] + bytes[1..];
    }
  }

  /** get_serial: as many UID bytes as fit in max_chars units, two units per
      byte; the result is the number of units written. */
  function GetSerial(uid: Uid, maxChars: nat): (u: seq<Unit>)
    ensures |u| <= maxChars && |u| % 2 == 0
    ensures |u| == 2 * UidLength || |u| == 2 * (maxChars / 2)
    ensures |u| <= 2 * UidLength
    ensures Decode(u) == Some(uid[..|u| / 2])
  {
    var used := if UidLength > maxChars / 2 then maxChars / 2 else UidLength;
    DecodeEncode(uid[..used]);
    Encode(uid[..used])
  }

  /** With the 32 units the descriptor buffer leaves for it, the serial is
      the whole UID in 24 hex digits. */
  lemma SerialIsWholeUid(uid: Uid)
    ensures |GetSerial(uid, 32)| == 24
    ensures Decode(GetSerial(uid, 32)) == Some(uid[..])
  {
    assert uid[..12] == uid;
  }

  /** The string indices of the descriptor table. */
  const LangIdIndex: u8 := 0
  const SerialIndex: u8 := 3

  /** string_desc_arr: entry 0 holds the language-ID bytes (below) and entry
      3 is never read, the serial being generated. */
  const Strings: seq<string> := ["", "TinyUSB", "TinyUSB Device", "", "TinyUSB CDC", "TinyUSB DFU"]

  /** Entry 0: the bytes { 0x09, 0x04 }. */
  const LangIdBytes: seq<u8> := [0x09, 0x04]

  /** The 32 units the 33-unit buffer has after its header. */
  const MaxChars: nat := 32

  /** memcpy of two bytes into a uint16_t on a little-endian core. */
  function LittleEndian(lo: u8, hi: u8): (u: Unit)
    ensures u % 256 == lo && u / 256 == hi
  {
    lo + 256 * hi
  }

  /** The language-ID unit is 0x0409, US English. */
  lemma LangIdIsEnglish()
    ensures LittleEndian(LangIdBytes[0], LangIdBytes[1]) == 0x0409
  {
  }

  /** The header word `(TUSB_DESC_STRING << 8) | (2 * chr_count + 2)`.
      chr_count never exceeds the 32 units the buffer has room for, so the
      two fields are disjoint and the OR is a sum. */
  function Header(count: nat): (h: Unit)
    requires count <= MaxChars
    ensures h % 256 == 2 * count + 2 && h / 256 == 3
  {
    3 * 256 + (2 * count + 2)
  }

  /** The ASCII table string, one zero-extended unit per character, cut to
      32 units. */
  function AsciiUnits(s: string): (u: seq<Unit>)
    requires forall i :: 0 <= i < |s| ==> s[i] as int < 0x100
    ensures |u| == if |s| > MaxChars then MaxChars else |s|
    ensures forall i :: 0 <= i < |u| ==> u[i] == s[i] as int
  {
    var n := if |s| > MaxChars then MaxChars else |s|;
    seq(n, i requires 0 <= i < n => Widen(s[i]))
  }

  lemma TableIsAscii(index: nat)
    requires index < |Strings|
    ensures forall i :: 0 <= i < |Strings[index]| ==> Strings[index][i] as int < 0x80
  {
  }

  /** tud_descriptor_string_cb: the header unit followed by chr_count
      units, or no descriptor (NULL) for an index past the table.  The
      language ID is ignored. */
  function StringDescriptor(index: u8, uid: Uid): (r: Option<seq<Unit>>)
    ensures r.None? <==> index >= |Strings|
    ensures r.Some? ==> 1 <= |r.value| <= 1 + MaxChars
    ensures r.Some? ==> r.value[0] % 256 == 2 * |r.value| && r.value[0] / 256 == 3
    ensures index == LangIdIndex ==> r == Some([r.value[0], 0x0409])
    ensures index == SerialIndex ==> r.Some? && |r.value| == 25 && Decode(r.value[1..]) == Some(uid[..])
    ensures index != LangIdIndex && index != SerialIndex && r.Some? ==>
      && |r.value| == 1 + |Strings[index]|
      && forall i :: 0 <= i < |Strings[index]| ==> r.value[1 + i] == Strings[index][i] as int
  {
    if index == LangIdIndex then
      LangIdIsEnglish();
      Some([Header(1), LittleEndian(LangIdBytes[0], LangIdBytes[1])])
    else if index == SerialIndex then
      var serial := GetSerial(uid, MaxChars);
      SerialIsWholeUid(uid);
      Some([Header(|serial|)] + serial)
    else if index >= |Strings| then None
    else
      TableIsAscii(index);
      var units := AsciiUnits(Strings[index]);
      Some([Header(|units|)] + units)
  }
}
